=== FILE: README.md ===
# Disk-quota enforcement daemon — Dafny model

The repository holds three variants of one daemon for a Pterodactyl-style
hosting panel. Each variant lists the per-tenant volume directories under a
root, measures each volume and applies an abuse rule. The two JavaScript
variants also look up the tenant that owns each volume in the panel's server
list. The Go variant reads the panel URL and key but never calls the panel:

- `nodejs/src/index.js` (module `NodeDaemon`) flags a volume above 110% of its
  disk quota. For a resolved tenant it then kills the server, wipes the volume,
  suspends the server, wipes again and posts a notification.
- `src/index.js` (module `SrcDaemon`) keeps the last measured size and a
  cumulative growth figure per volume. It flags sudden growth, cumulative
  growth or a quota breach, in that order of precedence. It notifies, and it
  suspends resolved tenants. It never wipes.
- `go/main.go` (module `GoDaemon`) alerts on any volume above 95 GiB and takes
  no other action.

The I/O sits around a small set of pure decisions, and those are modelled:

- `PanelUrl`: normalising the panel URL.
- `Enumeration`: filtering the directory listing.
- `Numerals` and `Measure`: the size arithmetic and output parsing. This covers
  JavaScript `parseInt`/`trim` and Go `strings.Fields`/`strconv.ParseInt`.
- `Servers`: the server-list snapshot cache and uuid matching.
- The three daemon modules: the tenant-record refresh, the classifiers, and
  enforcement as an ordered trace of actions.

Every external call is a parameter: the directory listing, the subprocess
outputs, the list request, and the success of the kill, suspend and webhook
calls. An absent listing (`None`) stands for a failed directory read. Sizes
are `real` GiB.

Each variant's quirks are reproduced as written, and lemmas state them:

- `src/index.js:165-166` compares `size * 1024` with a `max_size` that was
  already divided by 1024. The quota rule therefore fires at 1/1024 of the
  quota (`SrcDaemon.QuotaFiresFarBelowLimit`).
- `src/index.js:255-258` rewrites an unflagged volume's record without
  `max_size`. This switches the quota rule off until the next refresh.
- `src/index.js:73-89` refreshes every matched volume on every cycle and stores
  the size it measured then. The check compares with that fresh size, so for a
  matched volume growth since the previous cycle is invisible; only growth
  between the refresh and the check is seen (`SrcDaemon.RefreshMasksGrowth`).
- `src/index.js:168-215` notifies before looking at `internal_id`. An
  unresolved tenant is therefore still reported, although it is never suspended.
- `nodejs/src/index.js:302` always reports that the volume was suspended,
  whatever the suspend call returned.
- `nodejs/src/index.js:18-20` removes only one trailing slash. So does
  `go/main.go:54`. A URL ending in "//" keeps one slash, and a bare "http://"
  becomes "http:/".

Further behaviour of the code that the model keeps:

- Volume names come out in listing order, one per directory entry
  (`Enumeration.KeepVolumesInOrder`).
- At most one trailing slash is removed from the panel URL, and the older
  variant removes none.
- Every listed volume with a matching server is refreshed on every cycle,
  whether or not its record was already resolved.
- In the older variant's check loop, a new measurement is stored only for a
  volume that is not flagged (`SrcDaemon.UnflaggedChecksFollowDriftAfter`).
  The refresh before it stores a fresh measurement for every matched volume,
  flagged or not.
- The Node variant's notification does not depend on the suspend outcome.
- The Node variant refreshes its records even after a failed directory read,
  so the server list is still fetched when none is cached.

## Model

| member | source | states |
|---|---|---|
| `PanelUrl.WithScheme` | go/main.go:51-53 | the result always starts with a scheme; a schemed URL is kept as is, any other gets exactly "http://" in front |
| `PanelUrl.NormalizeSrc` | src/index.js:8-15 | the result has a scheme; a schemed URL is unchanged, otherwise it is "http://" followed by the input; no slash trimming |
| `PanelUrl.NormalizeNode` | nodejs/src/index.js:9-20 | the result is the scheme-prefixed URL or that URL minus its last character, and it is shorter exactly when the prefixed URL ends with "/" |
| `PanelUrl.TrimSuffix` | go/main.go:54 | one occurrence of the suffix is removed when present, otherwise the string is unchanged |
| `PanelUrl.NormalizeGo` | go/main.go:50-54 | the result is the scheme-prefixed URL with one trailing "/" removed when there is one, and unchanged otherwise |
| `PanelUrl.GoMatchesNode` | go/main.go:50-54 | the Go normalisation equals the Node normalisation on every input |
| `PanelUrl.SchemedUrlOnlyLosesSlash` | nodejs/src/index.js:9-20 | an already-schemed URL changes by at most one trailing "/" and nothing else |
| `PanelUrl.NormalizeNodeStable` | nodejs/src/index.js:9-20 | unless the prefixed URL ends in "//", the result has a scheme, no trailing "/", and normalising it again changes nothing |
| `PanelUrl.BareSchemeLosesScheme` | nodejs/src/index.js:18-20 | the bare "http://" becomes "http:/", which no longer has a scheme |
| `PanelUrl.DoubleSlashKeepsOne` | nodejs/src/index.js:18-20 | a schemed URL followed by "//" keeps one of the two slashes |
| `Enumeration.KeepVolumes` | nodejs/src/index.js:34-36 | a name is kept iff some entry with that name is a directory not named ".sftp"; ".sftp" is never kept |
| `Enumeration.VolumePositions` | nodejs/src/index.js:34-36 | the positions of exactly the directory entries not named ".sftp", strictly ascending |
| `Enumeration.KeepVolumesSnoc` | nodejs/src/index.js:34-36 | filtering a listing extended by one entry appends that entry's name exactly when it is a volume |
| `Enumeration.KeepVolumesInOrder` | nodejs/src/index.js:34-36 | the i-th kept name is the name of the entry at the i-th volume position: listing order, one name per volume entry |
| `Enumeration.ListVolumesNode` | nodejs/src/index.js:31-41 | a failed read yields the empty list; otherwise exactly the names of the directory entries not named ".sftp" |
| `Enumeration.KeepDirectories` | src/index.js:28-30 | a name is kept iff some entry with that name is a directory; nothing is excluded by name |
| `Enumeration.ListVolumesSrc` | src/index.js:25-36 | a failed read yields the empty list; otherwise exactly the names of the directory entries |
| `Enumeration.NodeListIsSrcListWithoutControlDir` | nodejs/src/index.js:35 | the Node list is the older list with every ".sftp" removed, in the same order |
| `Enumeration.ControlDirExample` | nodejs/src/index.js:34-36 | entries A, B and ".sftp" yield exactly ["A", "B"] |
| `Numerals.JsParseInt` | nodejs/src/index.js:63-64 | there is no result (NaN) exactly when no digit follows the leading white space and the optional sign; otherwise the value of the leading digit run, negated after a "-" |
| `Numerals.ParseIntOrZero` | nodejs/src/index.js:63-64 | NaN becomes 0, and otherwise the result is the value `parseInt` read from the trimmed text |
| `Numerals.ParseIntOrZeroDecimal` | nodejs/src/index.js:63-64 | the parsed total, 0 when it does not parse, of a decimal total followed by white space is that total |
| `Numerals.NoDigitsIsZero` | nodejs/src/index.js:63-64 | output containing no digit counts as 0 |
| `Numerals.Fields` | go/main.go:66 | every field is non-empty and space-free; there are no fields iff the text is all white space |
| `Numerals.FieldsSkipSpace` | go/main.go:66 | leading white space contributes no field |
| `Numerals.FieldsStep` | go/main.go:66 | white space, then a maximal non-space run, then the rest: the run is the next field and the rest is split the same way |
| `Numerals.FieldsOfJoinWords` | go/main.go:66 | non-empty space-free words joined by single spaces split back into exactly those words, in order |
| `Numerals.ParseInt64` | go/main.go:71 | text that is not an optional sign followed by digits only is a syntax error; a well-formed value within the signed 64-bit range is returned with its sign; one outside that range is a range error |
| `Numerals.ParseInt64Decimal` | go/main.go:71 | the decimal rendering of any value up to 2^63-1 parses back to it |
| `Numerals.ParseInt64NegativeDecimal` | go/main.go:71 | "-" followed by a decimal rendering parses back to its negation, down to -2^63 |
| `Numerals.ParseInt64Overflow` | go/main.go:71 | 2^63 is refused with a range error |
| `Numerals.FieldsHead` | go/main.go:66-71 | a leading space-free word followed by white space is the first field |
| `Measure.ToGiB` | nodejs/src/index.js:107-109 | the result times 2^30 is the byte count; non-negative bytes give a non-negative size |
| `Measure.ToGiBMonotone` | nodejs/src/index.js:107-109 | the conversion preserves and reflects order, strictly and non-strictly, and maps 0 to 0 |
| `Measure.MeasuredBytes` | nodejs/src/index.js:63-66 | the byte count is at least the apparent size and at least 512 times the block count, and equals one of them |
| `Measure.VolumeSizeNode` | nodejs/src/index.js:43-80 | a failed or timed-out measurement is 0; otherwise the size is the measured byte count in GiB |
| `Measure.VolumeSizeOfTotals` | nodejs/src/index.js:63-67 | with totals printed by awk, the size is max(apparent, 512 * blocks) in GiB, so at least both |
| `Measure.UnparsedBlocksCountAsZero` | nodejs/src/index.js:63-66 | an unparseable block total counts as 0 and leaves the apparent size |
| `Measure.VolumeSizeSrc` | src/index.js:38-46 | a failed stat yields 0; otherwise the directory entry's own size in GiB |
| `Measure.DiskUsage` | go/main.go:59-77 | a failed command is an error; all-white-space output is the format error; a value is returned iff the first field parses as a 64-bit integer, and it is that integer |
| `Measure.DiskUsageOfDuLine` | go/main.go:66-76 | a `du -sb` line "bytes, tab, path" reads back as its byte count |
| `Measure.DiskUsageRejectsNonInteger` | go/main.go:71-74 | a first field such as "4.0K" is a syntax error, not a size |
| `Servers.UseSnapshot` | nodejs/src/index.js:113-133 | a cached snapshot is used without a fetch; with none cached the panel is asked; a failed request leaves the cache as it was; a successful one caches the body; the servers used are always the cached snapshot's `data` |
| `Servers.QuotaGiB` | nodejs/src/index.js:144 | the quota times 1024 is the panel's disk limit |
| `Servers.FirstMatch` | nodejs/src/index.js:137-139 | the index found holds the uuid and no earlier server does; the list length means no match |
| `Servers.LastMatch` | src/index.js:78-88 | the index found holds the uuid and no later server does; -1 means no match |
| `NodeDaemon.AssignIds` | nodejs/src/index.js:135-153 | every listed volume with a match gets `{id, disk/1024, name}` from the first match; every other volume keeps its record or its absence |
| `NodeDaemon.CacheInternalIds` | nodejs/src/index.js:111-157 | a cached snapshot suppresses the fetch; the new snapshot is what the cache holds afterwards, so a successful fetch is cached; a failed fetch changes nothing; with a list the records are refreshed as above; unlisted volumes are untouched |
| `NodeDaemon.OverQuota` | nodejs/src/index.js:233-236 | flagged iff the quota is positive and the size exceeds 110% of it |
| `NodeDaemon.UnknownVolumeNeverFlagged` | nodejs/src/index.js:225-236 | a volume without a record falls back to quota 0 and is never flagged |
| `NodeDaemon.KillTarget` | nodejs/src/index.js:248-250 | the target is a dash-free prefix of the volume name that stops at the first "-" |
| `NodeDaemon.Deferred` | nodejs/src/index.js:271-304 | the suspension comes first, then the second wipe, then the notice when a webhook is set; every action concerns the volume |
| `NodeDaemon.Enforce` | nodejs/src/index.js:245-309 | no action at all iff `internal_id` is not positive; otherwise kill, wipe, suspend, wipe, then notify when a webhook is set, whatever the call outcomes |
| `NodeDaemon.FailuresDoNotStopEnforcement` | nodejs/src/index.js:246-304 | a failed kill and a failed suspend still lead to the same wipes and notification |
| `NodeDaemon.CheckVolume` | nodejs/src/index.js:222-318 | a volume acts iff its size breaks the quota rule and its tenant is resolved, and then its actions are exactly the enforcement trace; a volume without a record never acts |
| `NodeDaemon.Sweep` | nodejs/src/index.js:221-322 | every action concerns a listed, flagged, resolved volume, and every such volume is killed, wiped and suspended |
| `NodeDaemon.SweepSnoc` | nodejs/src/index.js:221-322 | no volume gives no action, and one more volume appends exactly that volume's own check: every volume's whole enforcement trace (kill, wipe, suspend, wipe, notify), kept together in listing order |
| `NodeDaemon.Cycle` | nodejs/src/index.js:212-323 | records change only in the refresh; the actions are the loop over the listed volumes against the refreshed records, so every listed volume that is flagged and resolved after the refresh is killed and suspended; every action concerns a listed non-".sftp" volume whose record has a positive `internal_id`; a failed read issues no action and keeps the records; the server list is fetched exactly when none is cached, even after a failed read |
| `SrcDaemon.ApplyServers` | src/index.js:78-88 | the record of the last matching server is stored, with the measured size; no match leaves the records unchanged |
| `SrcDaemon.AssignIds` | src/index.js:73-89 | every listed volume with a match gets `{id, measured size, disk/1024}` from the last match; every other volume keeps its record or its absence |
| `SrcDaemon.CacheInternalIds` | src/index.js:52-96 | a cached snapshot suppresses the fetch; the new snapshot is what the cache holds afterwards, so a successful fetch is cached; without a list nothing changes; cumulative changes are never touched; unlisted volumes are untouched |
| `SrcDaemon.AccumulateDrift` | src/index.js:155-159 | the cumulative change never decreases; it grows by exactly the increase when the size grew, and is unchanged otherwise |
| `SrcDaemon.QuotaBreached` | src/index.js:165-166 | breached iff a positive `max_size` is below size * 1024, that is iff the size exceeds 1/1024 of the quota |
| `SrcDaemon.Flagged` | src/index.js:161-166 | an unflagged volume is below both growth thresholds; without `max_size` only the two growth rules flag |
| `SrcDaemon.ReasonFor` | src/index.js:161-215 | a reason is reported iff the volume is flagged; "sudden" iff sudden growth; otherwise "cumulative" iff cumulative growth; otherwise the quota reason iff the quota is breached |
| `SrcDaemon.NoQuotaNeverBreached` | src/index.js:152-166 | a record without a positive `max_size`, such as the `{0, 0}` fallback, never yields the quota reason |
| `SrcDaemon.QuotaFiresFarBelowLimit` | src/index.js:165-166 | with a 10 GiB limit, a 0.5 GiB volume is reported as over its quota |
| `SrcDaemon.QuotaScenario` | src/index.js:161-215 | quota 10, previous 9, current 12: the quota rule is reported with a 5 GiB interval threshold, and sudden growth with a 2 GiB one |
| `SrcDaemon.CheckVolume` | src/index.js:149-261 | only the checked volume changes; a successful suspension resets its cumulative change to 0; a failed one or an unresolved tenant changes nothing; unflagged, the record becomes exactly `{id, size}` and the updated cumulative is stored; flagged, the actions are exactly one notice with the reported reason when a webhook is set, followed by one suspension when the tenant is resolved |
| `SrcDaemon.Sweep` | src/index.js:148-262 | unlisted volumes are untouched, cumulative changes stay non-negative, and every suspension targets a positive `internal_id` |
| `SrcDaemon.CheckVolumeLocal` | src/index.js:149-261 | a check reads and writes only its own volume's record and cumulative change: two states agreeing there give the same result there and the same actions |
| `SrcDaemon.ChecksFromLocal` | src/index.js:148-262 | checking each of the listed volumes on its own gives the same actions from any two states that agree on those volumes |
| `SrcDaemon.SweepChecksEach` | src/index.js:148-262 | over distinct volumes, the loop ends each volume with the record and cumulative change its own check from the starting state stores, and its actions are those checks' actions in listing order |
| `SrcDaemon.Cycle` | src/index.js:139-266 | the server list is fetched exactly when none is cached; over the distinct listed volumes, each ends with the record and cumulative change its own check stores against the refreshed state, and the actions are those checks' actions in listing order; unlisted volumes keep records and cumulative changes; cumulative changes stay non-negative; actions concern listed volumes, and suspensions only resolved tenants |
| `SrcDaemon.DriftAfter` | src/index.js:155-159 | over a run of unflagged checks the cumulative change never drops below its start |
| `SrcDaemon.ShrinkingKeepsDrift` | src/index.js:155-159 | a run of sizes that never rise leaves the cumulative change where it was |
| `SrcDaemon.DriftBoundsNetGrowth` | src/index.js:155-159 | over a run of unflagged checks, the cumulative change grows by at least the net growth |
| `SrcDaemon.SilentCheckIsUnflagged` | src/index.js:149-261 | with a webhook set, a check that issues no action stores the grown cumulative change and the new size |
| `SrcDaemon.UnflaggedChecksFollowDriftAfter` | src/index.js:149-261 | with a webhook set, successive checks of one volume that issue no action leave exactly `DriftAfter` of the recorded size as the cumulative change, and the last size in the record |
| `SrcDaemon.ResetThenNoGrowth` | src/index.js:155-159 | after a reset to 0, a check that does not grow keeps the cumulative change at 0 |
| `SrcDaemon.RefreshMasksGrowth` | src/index.js:76-86 | a matched volume that did not change since the refresh shows no sudden growth and adds nothing to its cumulative change |
| `GoDaemon.HighUsage` | go/main.go:139-143 | an alert fires iff the byte count exceeds 95 * 2^30 |
| `GoDaemon.SendNotification` | go/main.go:79-105 | a POST is sent iff a webhook URL is set; the result is an error iff a URL is set and the reply is not 204 |
| `GoDaemon.VisitedIsVolume` | go/main.go:128-130 | the loop measures exactly the directories not named ".sftp" |
| `GoDaemon.AlertFor` | go/main.go:128-153 | an entry alerts iff it is visited and measured without error above the threshold; the alert carries its name, that byte count and the delivery outcome |
| `GoDaemon.Scan` | go/main.go:127-154 | every alert is the alert of some listed entry, and every alerting entry's alert is present |
| `GoDaemon.ScanInListingOrder` | go/main.go:127-154 | an empty listing raises nothing; a listing extended by one entry raises the same alerts followed by that entry's alert exactly when it alerts: one alert per alerting entry, in listing order |
| `GoDaemon.Tick` | go/main.go:120-155 | a failed read gives no alerts; a successful read gives the scan of its entries, which `ScanInListingOrder` fixes; with no webhook URL no POST is sent and no error is reported |
| `GoDaemon.FailedMeasurementNeverAlerts` | go/main.go:133-137 | a volume whose measurement fails gets no alert |

## Left out

- Subprocesses are not modelled: `find`, `stat`, `awk`, `du` and `rm` via
  `execSync` or `exec.Command`. Their outputs, or their failure, are inputs.
- `fs.readdir`, `fs.readdirSync`, `fs.statSync` and `os.ReadDir` are not
  modelled. A listing is an optional sequence of entries, and a stat is an
  optional byte count.
- Go's `os.ReadDir` returns the entries read before an error, but the loop
  skips the tick on any error. So a failed read is simply an absent listing.
- `emptyVolume` is an action in the trace. Its effect on the file system,
  including idempotence, is not modelled.
- HTTP (`axios`, `net/http`) is not modelled. Each call is an action with a
  stubbed success flag or reply.
- Notifications carry only part of what the source sends. In the Node
  variant a notice carries the volume, the tenant name, the size and the
  quota; its reason is always "Storage Limit Exceeded", so the model does not
  carry it. In the older variant a notice carries the volume and the reason.
  The `details` text with the growth, the cumulative change, the size and the
  quota (src/index.js:182-213) is not modelled. Neither is the Discord embed
  or message text, nor `toFixed` and time formatting.
- Timers are not modelled: `setInterval`, the Go ticker and the 1 s
  `setTimeout`. One cycle is one function application. In the Node variant the
  deferred suspend, wipe and notify can interleave with later volumes' checks.
  The model keeps each volume's actions together, in their own order.
- Per-call timeouts (10 s subprocess, 5 s list request) appear only as
  failures.
- `NodeCache` TTL expiry is not modelled. The caller expresses an expired
  snapshot by passing an absent one. Record expiry after 24 h in the Node
  variant is likewise left to the caller.
- Config loading, `log.Fatal` and logging are not modelled.
- IEEE floating point is not modelled. Sizes are exact reals, and the
  cumulative change's `toString`/`parseFloat` round trip is treated as exact.
- Server entries are assumed well formed. An entry without `attributes`
  makes the JavaScript `find` throw, and that path is not modelled.
- `Numerals.ParseIntOrZero`: `parseInt`'s "0x" hexadecimal form and its
  loss of precision above 2^53 are not modelled. Neither can appear in an awk
  integer total below 2^53.
- `Numerals.ParseInt64`: for a digit run that overflows and is then followed
  by a non-digit, Go reports a range error and the model a syntax error. Both
  are errors, and the caller treats them alike.
- `Numerals.IsGoSpace`: Go works on UTF-8 bytes, and invalid UTF-8 is not
  modelled. White space is the explicit Unicode list that `unicode.IsSpace`
  uses.
- The older variant's `cacheInternalIDs` else-branch throws a
  `ReferenceError`, because `err` is not defined there. It is modelled by its
  effect: nothing changes.

=== FILE: common.dfy ===
/** Small failure-carrying datatypes and string helpers shared by every variant of the daemon. */
module Common {

  /** A value that may be absent: a JavaScript `undefined`/`null`, or a Go zero value that is not used. */
  datatype Option<T> = None | Some(value: T)

  /** A Go `(value, error)` pair: exactly one of the two is meaningful. */
  datatype Result<T, E> = Ok(value: T) | Err(error: E)

  /** `s.startsWith(prefix)` in JavaScript, `strings.HasPrefix(s, prefix)` in Go. */
  predicate StartsWith(s: string, prefix: string) {
    |prefix| <= |s| && s[..|prefix|] == prefix
  }

  /** `s.endsWith(suffix)` in JavaScript, `strings.HasSuffix(s, suffix)` in Go. */
  predicate EndsWith(s: string, suffix: string) {
    |suffix| <= |s| && s[|s| - |suffix|..] == suffix
  }

  /** `m.get(k) ?? fallback`: the stored value, or the fallback when the key is absent. */
  function GetOr<K, V>(m: map<K, V>, k: K, fallback: V): V {
    if k in m then m[k] else fallback
  }

  /** True when key `k` is present in both maps with the same value, or in neither. */
  predicate SameAt<K, V(==)>(m: map<K, V>, m': map<K, V>, k: K) {
    (k in m <==> k in m') && (k in m ==> m[k] == m'[k])
  }

  /** No element occurs twice, as with the names of one directory listing. */
  predicate Distinct<T(==)>(s: seq<T>) {
    forall i, j :: 0 <= i < j < |s| ==> s[i] != s[j]
  }

  /**
    The present results of `f` over `xs`, in order: a loop that `continue`s on
    some elements and appends a value for the others.
   */
  function Collect<A(==,!new), B(==)>(xs: seq<A>, f: A -> Option<B>): (r: seq<B>)
    ensures |r| <= |xs|
    ensures |xs| == 0 ==> r == []
    ensures forall b :: b in r ==> exists x :: x in xs && f(x) == Some(b)
    ensures forall x :: x in xs && f(x).Some? ==> f(x).value in r
  {
    if |xs| == 0 then []
    else
      var rest := Collect(xs[1..], f);
      assert forall x :: x in xs <==> x == xs[0] || x in xs[1..];
      match f(xs[0])
      case None => rest
      case Some(b) => [b] + rest
  }

  /**
    Extending the input by one element appends at most that element's result:
    one result per present element, in input order.
   */
  lemma {:induction false} CollectSnoc<A(!new), B>(xs: seq<A>, x: A, f: A -> Option<B>)
    ensures Collect(xs + [x], f) == Collect(xs, f) + (if f(x).Some? then [f(x).value] else [])
    decreases |xs|
  {
    if |xs| == 0 {
      assert xs + [x] == [x];
    } else {
      assert (xs + [x])[1..] == xs[1..] + [x];
      CollectSnoc(xs[1..], x, f);
    }
  }

  /** Number of bytes in one GiB, `1024 * 1024 * 1024` in all three variants. */
  const GiB: nat := 1073741824
}

=== FILE: enumeration.dfy ===
/**
  Volume enumeration: the entries of the volumes root become volume names.
  A failed directory read is represented by an absent listing.
 */
module Enumeration {
  import opened Common

  /** One directory entry as `readdir(..., { withFileTypes: true })` or `os.ReadDir` reports it. */
  datatype Entry = Entry(name: string, isDir: bool)

  /** The SFTP control directory that the Node and Go variants skip. */
  const ControlDir: string := ".sftp"

  /** Entries the Node and Go variants treat as volumes. */
  predicate IsVolume(e: Entry) {
    e.isDir && e.name != ControlDir
  }

  /** The Node filter `isDirectory() && name !== ".sftp"` followed by `map(name)`. */
  function KeepVolumes(entries: seq<Entry>): (r: seq<string>)
    ensures |r| <= |entries|
    ensures forall n :: n in r <==> exists e :: e in entries && IsVolume(e) && e.name == n
    ensures ControlDir !in r
  {
    if |entries| == 0 then []
    else
      var rest := KeepVolumes(entries[1..]);
      assert forall e :: e in entries[1..] ==> e in entries;
      if IsVolume(entries[0]) then [entries[0].name] + rest else rest
  }

  /** The older variant's filter `isDirectory()` followed by `map(name)`: nothing is excluded by name. */
  function KeepDirectories(entries: seq<Entry>): (r: seq<string>)
    ensures |r| <= |entries|
    ensures forall n :: n in r <==> exists e :: e in entries && e.isDir && e.name == n
  {
    if |entries| == 0 then []
    else
      var rest := KeepDirectories(entries[1..]);
      assert forall e :: e in entries[1..] ==> e in entries;
      if entries[0].isDir then [entries[0].name] + rest else rest
  }

  /** `listDirectoriesAsync` of the Node variant: a failed read yields the empty list. */
  function ListVolumesNode(listing: Option<seq<Entry>>): (r: seq<string>)
    ensures listing.None? ==> r == []
    ensures forall n :: n in r <==> listing.Some? && exists e :: e in listing.value && IsVolume(e) && e.name == n
  {
    match listing
    case None => []
    case Some(entries) => KeepVolumes(entries)
  }

  /** `listDirectoriesAsync` of the older variant: a failed read yields the empty list. */
  function ListVolumesSrc(listing: Option<seq<Entry>>): (r: seq<string>)
    ensures listing.None? ==> r == []
    ensures forall n :: n in r <==> listing.Some? && exists e :: e in listing.value && e.isDir && e.name == n
  {
    match listing
    case None => []
    case Some(entries) => KeepDirectories(entries)
  }

  /** Removes every occurrence of `x`, keeping the order of the rest. */
  function Without(names: seq<string>, x: string): (r: seq<string>)
    ensures forall n :: n in r <==> n in names && n != x
  {
    if |names| == 0 then []
    else if names[0] == x then Without(names[1..], x)
    else [names[0]] + Without(names[1..], x)
  }

  /**
    The two JavaScript filters differ by exactly the control directory: the
    Node list is the older list with every ".sftp" removed, order kept.
   */
  lemma {:induction false} NodeListIsSrcListWithoutControlDir(entries: seq<Entry>)
    ensures KeepVolumes(entries) == Without(KeepDirectories(entries), ControlDir)
  {
    if |entries| > 0 {
      NodeListIsSrcListWithoutControlDir(entries[1..]);
    }
  }

  /**
    The positions of the volume entries of a listing, ascending: an independent
    account of which entries the Node filter keeps and in which order.
   */
  function VolumePositions(entries: seq<Entry>): (p: seq<nat>)
    ensures forall i :: 0 <= i < |p| ==> p[i] < |entries| && IsVolume(entries[p[i]])
    ensures forall i, j :: 0 <= i < j < |p| ==> p[i] < p[j]
    ensures forall k :: 0 <= k < |entries| && IsVolume(entries[k]) ==> k in p
    decreases |entries|
  {
    if |entries| == 0 then []
    else
      var last := |entries| - 1;
      var p := VolumePositions(entries[..last]);
      assert forall i :: 0 <= i < |p| ==> entries[..last][p[i]] == entries[p[i]];
      if IsVolume(entries[last]) then p + [last] else p
  }

  /** Filtering a listing extended by one entry extends the filtered names by at most that entry's name. */
  lemma {:induction false} KeepVolumesSnoc(entries: seq<Entry>, e: Entry)
    ensures KeepVolumes(entries + [e]) == KeepVolumes(entries) + (if IsVolume(e) then [e.name] else [])
    decreases |entries|
  {
    if |entries| == 0 {
      assert entries + [e] == [e];
    } else {
      assert (entries + [e])[1..] == entries[1..] + [e];
      KeepVolumesSnoc(entries[1..], e);
    }
  }

  /**
    Volumes are reported in listing order, once per entry: the i-th kept name is
    the name of the entry at the i-th volume position.
   */
  lemma {:induction false} KeepVolumesInOrder(entries: seq<Entry>)
    ensures |KeepVolumes(entries)| == |VolumePositions(entries)|
    ensures forall i :: 0 <= i < |VolumePositions(entries)| ==>
      KeepVolumes(entries)[i] == entries[VolumePositions(entries)[i]].name
    decreases |entries|
  {
    if |entries| > 0 {
      var last := |entries| - 1;
      var init := entries[..last];
      KeepVolumesInOrder(init);
      assert init + [entries[last]] == entries;
      KeepVolumesSnoc(init, entries[last]);
      var p := VolumePositions(init);
      assert forall i :: 0 <= i < |p| ==> init[p[i]] == entries[p[i]];
    }
  }

  /** A listing with two volumes and the control directory yields exactly the two volumes. */
  lemma ControlDirExample()
    ensures KeepVolumes([Entry("A", true), Entry("B", true), Entry(ControlDir, true)]) == ["A", "B"]
  {
    assert KeepVolumes([Entry(ControlDir, true)]) == [];
    assert [Entry("A", true), Entry("B", true), Entry(ControlDir, true)][1..] == [Entry("B", true), Entry(ControlDir, true)];
    assert [Entry("B", true), Entry(ControlDir, true)][1..] == [Entry(ControlDir, true)];
  }
}

=== FILE: go_daemon.dfy ===
/**
  The Go variant of the daemon: on every tick it measures each volume with
  `du -sb` and posts an alert for volumes above 95 GiB.  It neither suspends
  nor wipes anything.
 */
module GoDaemon {
  import opened Common
  import opened Enumeration
  import opened Measure

  /** The alert threshold, in GiB. */
  const AlertGiB: real := 95.0

  /** `usageGB > 95` with `usageGB = float64(usage) / (1024 * 1024 * 1024)`. */
  predicate HighUsage(usage: int): (r: bool)
    ensures r <==> usage > 95 * GiB
  {
    ToGiB(usage) > AlertGiB
  }

  /** The stubbed webhook POST: the request failed, or the status code the server answered. */
  datatype WebhookReply = PostFailed | Status(code: int)

  datatype NotifyError = PostError | UnexpectedStatus(code: int)

  /** Whether a POST was sent, and the error `sendDiscordNotification` returns. */
  datatype Delivery = Delivery(sent: bool, error: Option<NotifyError>)

  /** The status `http.StatusNoContent`, the only one accepted as success. */
  const NoContent: int := 204

  /**
    `sendDiscordNotification`: with no webhook URL it succeeds without sending;
    otherwise any reply but 204 No Content is an error.
   */
  function SendNotification(webhook: string, reply: WebhookReply): (r: Delivery)
    ensures r.sent <==> webhook != ""
    ensures r.error.None? <==> webhook == "" || reply == Status(NoContent)
    ensures r.error.Some? && r.error.value.UnexpectedStatus? ==> reply == Status(r.error.value.code) && r.error.value.code != NoContent
  {
    if webhook == "" then Delivery(false, None)
    else
      match reply
      case PostFailed => Delivery(true, Some(PostError))
      case Status(code) => if code != NoContent then Delivery(true, Some(UnexpectedStatus(code))) else Delivery(true, None)
  }

  /** One alert: the volume, the byte count `du` reported, and what delivering it did. */
  datatype Alert = Alert(volume: string, usage: int, delivery: Delivery)

  /** True when the Go loop measures the entry; it skips non-directories and ".sftp". */
  predicate Visited(e: Entry) {
    !(!e.isDir || e.name == ControlDir)
  }

  /** The Go loop skips exactly the entries the Node filter drops. */
  lemma VisitedIsVolume(e: Entry)
    ensures Visited(e) <==> IsVolume(e)
  {
  }

  /** The alert the Go loop raises for one entry, if any. */
  ghost predicate Alerted(e: Entry, du: string -> DuRun) {
    Visited(e) && DiskUsage(du(e.name)).Ok? && HighUsage(DiskUsage(du(e.name)).value)
  }

  /** The body of the loop for one entry: skipped entries and measurement errors `continue`. */
  function AlertFor(e: Entry, du: string -> DuRun, webhook: string, reply: string -> WebhookReply)
    : (r: Option<Alert>)
    ensures r.Some? <==> Alerted(e, du)
    ensures r.Some? ==>
      && r.value.volume == e.name
      && DiskUsage(du(e.name)) == Ok(r.value.usage)
      && r.value.delivery == SendNotification(webhook, reply(e.name))
  {
    if !Visited(e) then None
    else
      match DiskUsage(du(e.name))
      case Err(_) => None
      case Ok(usage) =>
        if HighUsage(usage) then Some(Alert(e.name, usage, SendNotification(webhook, reply(e.name))))
        else None
  }

  /** The `for _, file := range files` loop: one alert per alerting entry, in listing order (`ScanInListingOrder`). */
  function Scan(entries: seq<Entry>, du: string -> DuRun, webhook: string, reply: string -> WebhookReply)
    : (r: seq<Alert>)
    ensures |r| <= |entries|
    ensures forall a :: a in r ==> exists e :: e in entries && AlertFor(e, du, webhook, reply) == Some(a)
    ensures forall e :: e in entries && Alerted(e, du) ==> AlertFor(e, du, webhook, reply).value in r
  {
    Collect(entries, e => AlertFor(e, du, webhook, reply))
  }

  /**
    The scan in listing order: an empty listing raises nothing, and a listing
    extended by one entry raises the same alerts followed by at most that
    entry's one alert.
   */
  lemma ScanInListingOrder(entries: seq<Entry>, e: Entry, du: string -> DuRun, webhook: string,
                           reply: string -> WebhookReply)
    ensures Scan([], du, webhook, reply) == []
    ensures Scan(entries + [e], du, webhook, reply)
      == Scan(entries, du, webhook, reply)
         + (if Alerted(e, du) then [AlertFor(e, du, webhook, reply).value] else [])
  {
    CollectSnoc(entries, e, x => AlertFor(x, du, webhook, reply));
  }

  /**
    One tick: a failed `os.ReadDir` skips the tick.  Without a webhook URL no
    POST is ever sent and no error is reported.
   */
  function Tick(listing: Option<seq<Entry>>, du: string -> DuRun, webhook: string, reply: string -> WebhookReply)
    : (r: seq<Alert>)
    ensures listing.None? ==> r == []
    ensures listing.Some? ==> r == Scan(listing.value, du, webhook, reply)
    ensures forall a :: a in r ==> a.volume != ControlDir && HighUsage(a.usage) && DiskUsage(du(a.volume)) == Ok(a.usage)
    ensures webhook == "" ==> forall a :: a in r ==> !a.delivery.sent && a.delivery.error.None?
  {
    match listing
    case None => []
    case Some(entries) =>
      var r := Scan(entries, du, webhook, reply);
      forall a | a in r
        ensures a.volume != ControlDir && HighUsage(a.usage) && DiskUsage(du(a.volume)) == Ok(a.usage)
        ensures webhook == "" ==> !a.delivery.sent && a.delivery.error.None?
      {
        var e :| e in entries && AlertFor(e, du, webhook, reply) == Some(a);
      }
      r
  }

  /** A volume whose measurement fails never alerts, so no notification is sent for it. */
  lemma FailedMeasurementNeverAlerts(entries: seq<Entry>, du: string -> DuRun, webhook: string,
                                     reply: string -> WebhookReply, volume: string)
    requires DiskUsage(du(volume)).Err?
    ensures forall a :: a in Scan(entries, du, webhook, reply) ==> a.volume != volume
  {
    forall a | a in Scan(entries, du, webhook, reply)
      ensures a.volume != volume
    {
      var e :| e in entries && AlertFor(e, du, webhook, reply) == Some(a);
    }
  }
}

=== FILE: measure.dfy ===
/**
  Size measurement.  The subprocesses themselves (`find`/`stat`/`awk`, `du`,
  `statSync`) are not modelled: their outputs are the inputs here.
 */
module Measure {
  import opened Common
  import opened Numerals

  /** `convertToGB`: bytes divided by 2^30. */
  function ToGiB(bytes: int): (r: real)
    ensures r * (GiB as real) == bytes as real
    ensures bytes >= 0 ==> r >= 0.0
  {
    bytes as real / GiB as real
  }

  /** The conversion is strictly monotone and maps 0 to 0. */
  lemma ToGiBMonotone(a: int, b: int)
    ensures a <= b <==> ToGiB(a) <= ToGiB(b)
    ensures a < b <==> ToGiB(a) < ToGiB(b)
    ensures ToGiB(0) == 0.0
  {
  }

  // ---------------------------------------------------------------------------
  // Node variant

  /**
    What the two `execSync` pipelines printed: the `awk` total of `stat --format=%s`
    (apparent bytes) and of `stat --format=%b` (512-byte blocks).  A thrown
    exception, a timeout included, is `ProbeFailed`.
   */
  datatype SizeProbe = ProbeFailed | ProbeOutput(apparentOut: string, blocksOut: string)

  /** `Math.max(sizeInBytes, blockSize)` where each operand is `parseInt(out.trim()) || 0`, blocks times 512. */
  function MeasuredBytes(apparentOut: string, blocksOut: string): (r: int)
    ensures r >= ParseIntOrZero(apparentOut)
    ensures r >= ParseIntOrZero(blocksOut) * 512
    ensures r == ParseIntOrZero(apparentOut) || r == ParseIntOrZero(blocksOut) * 512
  {
    var sizeInBytes := ParseIntOrZero(apparentOut);
    var blockSize := ParseIntOrZero(blocksOut) * 512;
    if sizeInBytes >= blockSize then sizeInBytes else blockSize
  }

  /** `fetchVolumeSize` of the Node variant, in GiB; any failure yields 0. */
  function VolumeSizeNode(probe: SizeProbe): (r: real)
    ensures probe.ProbeFailed? ==> r == 0.0
    ensures probe.ProbeOutput? ==> r * (GiB as real) == MeasuredBytes(probe.apparentOut, probe.blocksOut) as real
  {
    match probe
    case ProbeFailed => 0.0
    case ProbeOutput(apparentOut, blocksOut) => ToGiB(MeasuredBytes(apparentOut, blocksOut))
  }

  /**
    With the totals printed as `awk` prints them, the measured size is the larger
    of the apparent byte count and 512 times the block count, so it is at least both.
   */
  lemma VolumeSizeOfTotals(apparent: nat, blocks: nat)
    ensures var size := VolumeSizeNode(ProbeOutput(Decimal(apparent) + "\n", Decimal(blocks) + "\n"));
      && size >= ToGiB(apparent)
      && size >= ToGiB(512 * blocks)
      && (size == ToGiB(apparent) || size == ToGiB(512 * blocks))
  {
    ParseIntOrZeroDecimal(apparent, "\n");
    ParseIntOrZeroDecimal(blocks, "\n");
    var bytes := MeasuredBytes(Decimal(apparent) + "\n", Decimal(blocks) + "\n");
    assert bytes == apparent || bytes == 512 * blocks;
    assert bytes >= apparent && bytes >= 512 * blocks;
    ToGiBMonotone(apparent, bytes);
    ToGiBMonotone(512 * blocks, bytes);
  }

  /** Totals that do not parse count as 0, so an unreadable block total leaves the apparent size. */
  lemma UnparsedBlocksCountAsZero(apparent: nat, blocksOut: string)
    requires forall i :: 0 <= i < |blocksOut| ==> !IsDigit(blocksOut[i])
    ensures VolumeSizeNode(ProbeOutput(Decimal(apparent) + "\n", blocksOut)) == ToGiB(apparent)
  {
    var apparentOut := Decimal(apparent) + "\n";
    ParseIntOrZeroDecimal(apparent, "\n");
    NoDigitsIsZero(blocksOut);
    assert MeasuredBytes(apparentOut, blocksOut) == apparent;
  }

  // ---------------------------------------------------------------------------
  // Older JavaScript variant

  /**
    `fetchVolumeSize` of the older variant: the `size` field of `statSync` on the
    volume directory itself, in GiB; a failed stat (`None`) yields 0.
   */
  function VolumeSizeSrc(statSize: Option<nat>): (r: real)
    ensures r >= 0.0
    ensures statSize.None? ==> r == 0.0
    ensures statSize.Some? ==> r * (GiB as real) == statSize.value as real
  {
    match statSize
    case None => 0.0
    case Some(bytes) => ToGiB(bytes)
  }

  // ---------------------------------------------------------------------------
  // Go variant

  /** The outcome of running `du -sb path`: the command failed, or what it wrote to stdout. */
  datatype DuRun = DuFailed | DuOutput(text: string)

  datatype DuError = CommandFailed | UnexpectedFormat | NotAnInteger(cause: NumError)

  /**
    `getDiskUsage`: the first white-space separated field of the output, read as
    a signed 64-bit base-10 integer.
   */
  function DiskUsage(run: DuRun): (r: Result<int, DuError>)
    ensures run.DuFailed? ==> r == Err(CommandFailed)
    ensures run.DuOutput? && AllGoSpace(run.text) ==> r == Err(UnexpectedFormat)
    ensures r.Ok? <==> run.DuOutput? && |Fields(run.text)| > 0 && ParseInt64(Fields(run.text)[0]).Ok?
    ensures r.Ok? ==> r.value == ParseInt64(Fields(run.text)[0]).value && MinInt64 <= r.value <= MaxInt64
  {
    match run
    case DuFailed => Err(CommandFailed)
    case DuOutput(text) =>
      var parts := Fields(text);
      if |parts| < 1 then Err(UnexpectedFormat)
      else
        match ParseInt64(parts[0])
        case Err(e) => Err(NotAnInteger(e))
        case Ok(size) => Ok(size)
  }

  /** A `du -sb` line "<bytes>\t<path>\n" reads back as its byte count. */
  lemma DiskUsageOfDuLine(bytes: nat, path: string)
    requires bytes <= MaxInt64
    ensures DiskUsage(DuOutput(Decimal(bytes) + "\t" + path + "\n")) == Ok(bytes)
  {
    var ds := Decimal(bytes);
    var tail := "\t" + path + "\n";
    assert ds + "\t" + path + "\n" == ds + tail;
    assert NoGoSpace(ds) by {
      forall i | 0 <= i < |ds|
        ensures !IsGoSpace(ds[i])
      {
        assert IsDigit(ds[i]);
      }
    }
    FieldsHead(ds, tail);
    ParseInt64Decimal(bytes);
  }

  /** A first field that is not an integer, such as the human-readable "4.0K", is an error and not a size. */
  lemma DiskUsageRejectsNonInteger(tail: string)
    requires tail == [] || IsGoSpace(tail[0])
    ensures DiskUsage(DuOutput("4.0K" + tail)) == Err(NotAnInteger(ErrSyntax))
  {
    var w := "4.0K";
    assert NoGoSpace(w) by {
      forall i | 0 <= i < |w|
        ensures !IsGoSpace(w[i])
      {
      }
    }
    FieldsHead(w, tail);
    assert !AllDigits(w) by {
      assert !IsDigit(w[1]);
    }
    assert ParseInt64(w) == Err(ErrSyntax);
  }
}

=== FILE: node_daemon.dfy ===
/**
  The Node variant of the daemon: tenant records refreshed from the server list,
  a quota rule with 10% headroom, and a kill, wipe, suspend, wipe, notify
  sequence for flagged volumes of resolved tenants.
 */
module NodeDaemon {
  import opened Common
  import opened Enumeration
  import opened Measure
  import opened Servers

  /** A cached tenant record: `{ internal_id, max_size, name }`, `max_size` in GiB. */
  datatype TenantRecord = TenantRecord(internalId: int, maxSize: real, name: string)

  /** The fallback `{ internal_id: 0, max_size: 0, name: "" }` for a volume without a record. */
  const Unresolved: TenantRecord := TenantRecord(0, 0.0, "")

  /** The two caches: tenant records keyed by volume, and the server-list snapshot. */
  datatype State = State(records: map<string, TenantRecord>, snapshot: Option<ServerList>)

  function RecordOf(s: Server): TenantRecord {
    TenantRecord(s.id, QuotaGiB(s), s.name)
  }

  function Lookup(records: map<string, TenantRecord>, volume: string): TenantRecord {
    GetOr(records, volume, Unresolved)
  }

  /**
    The outcome a refresh promises: every listed volume with a matching server
    holds the record built from the first match; every other volume keeps its
    record, or keeps having none.
   */
  ghost predicate Refreshed(before: map<string, TenantRecord>, after: map<string, TenantRecord>,
                            servers: seq<Server>, volumes: seq<string>)
  {
    && (forall v :: v in volumes && FirstMatch(servers, v) < |servers| ==>
          v in after && after[v] == RecordOf(servers[FirstMatch(servers, v)]))
    && (forall v :: !(v in volumes && FirstMatch(servers, v) < |servers|) ==> SameAt(before, after, v))
  }

  /** The `for (const volume of volumes)` loop of `cacheInternalIDs` with its `find`. */
  function AssignIds(records: map<string, TenantRecord>, servers: seq<Server>, volumes: seq<string>)
    : (r: map<string, TenantRecord>)
    ensures Refreshed(records, r, servers, volumes)
    decreases |volumes|
  {
    if |volumes| == 0 then records
    else
      var v := volumes[0];
      var i := FirstMatch(servers, v);
      var next := if i < |servers| then records[v := RecordOf(servers[i])] else records;
      var r := AssignIds(next, servers, volumes[1..]);
      RefreshedCons(records, next, r, servers, volumes);
      r
  }

  /** Refreshing the first volume, then the rest, refreshes the whole list. */
  lemma RefreshedCons(records: map<string, TenantRecord>, next: map<string, TenantRecord>,
                      after: map<string, TenantRecord>, servers: seq<Server>, volumes: seq<string>)
    requires |volumes| > 0
    requires var i := FirstMatch(servers, volumes[0]);
      next == if i < |servers| then records[volumes[0] := RecordOf(servers[i])] else records
    requires Refreshed(next, after, servers, volumes[1..])
    ensures Refreshed(records, after, servers, volumes)
  {
    var v, tail := volumes[0], volumes[1..];
    forall w | w in volumes && FirstMatch(servers, w) < |servers|
      ensures w in after && after[w] == RecordOf(servers[FirstMatch(servers, w)])
    {
      if w !in tail {
        assert w == v && SameAt(next, after, w);
      }
    }
    forall w | !(w in volumes && FirstMatch(servers, w) < |servers|)
      ensures SameAt(records, after, w)
    {
      assert w !in tail || FirstMatch(servers, w) >= |servers|;
      assert SameAt(next, after, w);
      assert w != v || FirstMatch(servers, v) >= |servers|;
    }
  }

  datatype Reconciled = Reconciled(state: State, fetched: bool)

  /**
    `cacheInternalIDs`: reads the snapshot (asking the panel only when none is
    cached) and refreshes the records of the listed volumes from it.  Without
    a list, because the request failed or the body has no `data`, nothing changes.
   */
  function CacheInternalIds(st: State, volumes: seq<string>, fetch: Fetch): (r: Reconciled)
    ensures st.snapshot.Some? ==> !r.fetched && r.state.snapshot == st.snapshot
    ensures st.snapshot.None? ==> r.fetched
    ensures r.state.snapshot == UseSnapshot(st.snapshot, fetch).cached
    ensures fetch.FetchFailed? && st.snapshot.None? ==> r.state == st
    ensures var u := UseSnapshot(st.snapshot, fetch);
      && (u.servers.Some? ==> Refreshed(st.records, r.state.records, u.servers.value, volumes))
      && (u.servers.None? ==> r.state.records == st.records)
    ensures forall v :: v !in volumes ==> SameAt(st.records, r.state.records, v)
  {
    var u := UseSnapshot(st.snapshot, fetch);
    match u.servers
    case None => Reconciled(State(st.records, u.cached), u.fetched)
    case Some(servers) => Reconciled(State(AssignIds(st.records, servers, volumes), u.cached), u.fetched)
  }

  /**
    The quota rule: a positive `max_size` exceeded by more than a tenth of
    itself, which is to say a size above 110% of a positive quota.
   */
  predicate OverQuota(sizeGiB: real, rec: TenantRecord): (r: bool)
    ensures r <==> rec.maxSize > 0.0 && sizeGiB > Headroom * rec.maxSize
  {
    rec.maxSize > 0.0 && sizeGiB > rec.maxSize / 10.0 + rec.maxSize
  }

  /** The headroom the quota rule allows, as a factor of the quota. */
  const Headroom: real := 1.1

  /** A volume without a record is never flagged, whatever its size. */
  lemma UnknownVolumeNeverFlagged(records: map<string, TenantRecord>, volume: string, sizeGiB: real)
    requires volume !in records
    ensures !OverQuota(sizeGiB, Lookup(records, volume))
  {
  }

  /** `volume.split("-")[0]`: everything before the first "-", or the whole name. */
  function KillTarget(volume: string): (r: string)
    ensures StartsWith(volume, r)
    ensures '-' !in r
    ensures |r| < |volume| ==> volume[|r|] == '-'
  {
    if |volume| == 0 || volume[0] == '-' then ""
    else [volume[0]] + KillTarget(volume[1..])
  }

  /** Stubbed success of the two control-panel calls a flagged volume triggers. */
  datatype CallOutcomes = CallOutcomes(killOk: bool, suspendOk: bool)

  /**
    The side effects of the Node variant, in the order they are issued.
    `Notify` posts the fixed reason "Storage Limit Exceeded" with the size and
    limit, and always claims that the files were deleted and the volume suspended.
   */
  datatype Action =
    | Kill(volume: string, target: string, ok: bool)
    | Wipe(volume: string)
    | Suspend(volume: string, internalId: int, ok: bool)
    | Notify(volume: string, name: string, sizeGiB: real, maxGiB: real)

  /** The part deferred by `setTimeout`: suspend, wipe again, then notify when a webhook is configured. */
  function Deferred(volume: string, rec: TenantRecord, sizeGiB: real, webhook: string, o: CallOutcomes)
    : (r: seq<Action>)
    ensures |r| == if webhook == "" then 2 else 3
    ensures r[0] == Suspend(volume, rec.internalId, o.suspendOk) && r[1] == Wipe(volume)
    ensures webhook != "" ==> r[2] == Notify(volume, rec.name, sizeGiB, rec.maxSize)
    ensures forall a :: a in r ==> a.volume == volume
  {
    [Suspend(volume, rec.internalId, o.suspendOk), Wipe(volume)]
      + (if webhook == "" then [] else [Notify(volume, rec.name, sizeGiB, rec.maxSize)])
  }

  /**
    Enforcement for a flagged volume.  An unresolved tenant (`internal_id` not
    positive) gets no action at all; otherwise kill, wipe, suspend, wipe and
    notify follow one another whatever the kill and suspend calls return.
   */
  function Enforce(volume: string, rec: TenantRecord, sizeGiB: real, webhook: string, o: CallOutcomes)
    : (r: seq<Action>)
    ensures rec.internalId <= 0 <==> r == []
    ensures rec.internalId > 0 ==> |r| == (if webhook == "" then 4 else 5)
    ensures rec.internalId > 0 ==>
      && r[0] == Kill(volume, KillTarget(volume), o.killOk)
      && r[1] == Wipe(volume)
      && r[2] == Suspend(volume, rec.internalId, o.suspendOk)
      && r[3] == Wipe(volume)
    ensures rec.internalId > 0 && webhook != "" ==> r[4] == Notify(volume, rec.name, sizeGiB, rec.maxSize)
    ensures forall a :: a in r ==> a.volume == volume
  {
    if rec.internalId > 0 then
      [Kill(volume, KillTarget(volume), o.killOk), Wipe(volume)] + Deferred(volume, rec, sizeGiB, webhook, o)
    else []
  }

  /** A failed kill or suspend changes nothing but the recorded outcome: the later steps still run. */
  lemma FailuresDoNotStopEnforcement(volume: string, rec: TenantRecord, sizeGiB: real, webhook: string)
    requires rec.internalId > 0
    ensures var ok := Enforce(volume, rec, sizeGiB, webhook, CallOutcomes(true, true));
      var failed := Enforce(volume, rec, sizeGiB, webhook, CallOutcomes(false, false));
      && |ok| == |failed|
      && ok[1..2] == failed[1..2] && ok[3..] == failed[3..]
      && failed[2] == Suspend(volume, rec.internalId, false)
  {
  }

  /** One volume of `main`: look up its record, measure it, and enforce when the quota rule fires. */
  function CheckVolume(records: map<string, TenantRecord>, volume: string, probe: SizeProbe,
                       webhook: string, o: CallOutcomes): (r: seq<Action>)
    ensures r != [] <==> OverQuota(VolumeSizeNode(probe), Lookup(records, volume)) && Lookup(records, volume).internalId > 0
    ensures volume !in records ==> r == []
    ensures forall a :: a in r ==> a.volume == volume
    ensures r != [] ==> r == Enforce(volume, Lookup(records, volume), VolumeSizeNode(probe), webhook, o)
  {
    var rec := Lookup(records, volume);
    var sizeGiB := VolumeSizeNode(probe);
    if OverQuota(sizeGiB, rec) then Enforce(volume, rec, sizeGiB, webhook, o) else []
  }

  /** True when the volume is flagged and its tenant is resolved, so enforcement acts on it. */
  ghost predicate Enforceable(records: map<string, TenantRecord>, volume: string, probe: string -> SizeProbe) {
    Lookup(records, volume).internalId > 0 && OverQuota(VolumeSizeNode(probe(volume)), Lookup(records, volume))
  }

  /** The `for (const volume of volumes)` loop of `main`, each volume's actions in listing order. */
  function Sweep(records: map<string, TenantRecord>, volumes: seq<string>, probe: string -> SizeProbe,
                 webhook: string, outcomes: string -> CallOutcomes): (r: seq<Action>)
    ensures forall a :: a in r ==> a.volume in volumes && Enforceable(records, a.volume, probe)
    ensures forall v :: v in volumes && Enforceable(records, v, probe) ==>
      && Kill(v, KillTarget(v), outcomes(v).killOk) in r
      && Wipe(v) in r
      && Suspend(v, Lookup(records, v).internalId, outcomes(v).suspendOk) in r
  {
    if |volumes| == 0 then []
    else
      var v := volumes[0];
      var head := CheckVolume(records, v, probe(v), webhook, outcomes(v));
      var tail := Sweep(records, volumes[1..], probe, webhook, outcomes);
      assert forall w :: w in volumes <==> w == v || w in volumes[1..];
      assert Enforceable(records, v, probe) ==>
        head[0] == Kill(v, KillTarget(v), outcomes(v).killOk) && head[1] == Wipe(v)
        && head[2] == Suspend(v, Lookup(records, v).internalId, outcomes(v).suspendOk);
      head + tail
  }

  /**
    The loop in listing order: no volume gives no action, and one more volume
    appends exactly that volume's own check, so every volume contributes its
    whole enforcement trace, kept together.
   */
  lemma {:induction false} SweepSnoc(records: map<string, TenantRecord>, volumes: seq<string>, v: string,
                                     probe: string -> SizeProbe, webhook: string, outcomes: string -> CallOutcomes)
    ensures Sweep(records, [], probe, webhook, outcomes) == []
    ensures Sweep(records, volumes + [v], probe, webhook, outcomes)
      == Sweep(records, volumes, probe, webhook, outcomes) + CheckVolume(records, v, probe(v), webhook, outcomes(v))
    decreases |volumes|
  {
    if |volumes| == 0 {
      assert volumes + [v] == [v];
      assert Sweep(records, [v][1..], probe, webhook, outcomes) == [];
    } else {
      assert (volumes + [v])[1..] == volumes[1..] + [v];
      SweepSnoc(records, volumes[1..], v, probe, webhook, outcomes);
    }
  }

  datatype CycleResult = CycleResult(state: State, fetched: bool, trace: seq<Action>)

  /**
    One run of `main`: enumerate, refresh the records, then check every volume.
    Records change only in the refresh, and every action concerns a listed
    volume whose tenant is resolved and whose size breaks the quota rule.  The
    refresh runs even for a failed read, so the server list is still fetched
    when none is cached.
   */
  function Cycle(st: State, listing: Option<seq<Entry>>, fetch: Fetch, probe: string -> SizeProbe,
                 webhook: string, outcomes: string -> CallOutcomes): (r: CycleResult)
    ensures r.state == CacheInternalIds(st, ListVolumesNode(listing), fetch).state
    ensures forall a :: a in r.trace ==>
      && a.volume in ListVolumesNode(listing)
      && a.volume != ControlDir
      && a.volume in r.state.records
      && r.state.records[a.volume].internalId > 0
    ensures listing.None? ==> r.trace == [] && r.state.records == st.records
    ensures st.snapshot.None? <==> r.fetched
    ensures forall v :: v in ListVolumesNode(listing) && Enforceable(r.state.records, v, probe) ==>
      && Kill(v, KillTarget(v), outcomes(v).killOk) in r.trace
      && Suspend(v, Lookup(r.state.records, v).internalId, outcomes(v).suspendOk) in r.trace
    ensures r.trace == Sweep(r.state.records, ListVolumesNode(listing), probe, webhook, outcomes)
  {
    var volumes := ListVolumesNode(listing);
    var rc := CacheInternalIds(st, volumes, fetch);
    CycleResult(rc.state, rc.fetched, Sweep(rc.state.records, volumes, probe, webhook, outcomes))
  }
}

=== FILE: numerals.dfy ===
/**
  Text-to-number conversions the daemons rely on: JavaScript's `String.prototype.trim`
  and `parseInt` (radix omitted), and Go's `strings.Fields` and `strconv.ParseInt(s, 10, 64)`,
  together with the decimal rendering that `awk` and `du` print.
 */
module Numerals {
  import opened Common

  predicate IsDigit(c: char) {
    '0' <= c <= '9'
  }

  predicate AllDigits(s: string) {
    forall i :: 0 <= i < |s| ==> IsDigit(s[i])
  }

  function DigitValue(c: char): (d: nat)
    requires IsDigit(c)
    ensures d < 10
  {
    (c as int) - ('0' as int)
  }

  function DigitChar(d: nat): (c: char)
    requires d < 10
    ensures IsDigit(c) && DigitValue(c) == d
  {
    ('0' as int + d) as char
  }

  /** Base-10 value of a digit string; the empty string has value 0. */
  function DigitsValue(s: string): nat
    requires AllDigits(s)
  {
    if |s| == 0 then 0 else DigitsValue(s[..|s| - 1]) * 10 + DigitValue(s[|s| - 1])
  }

  /** The decimal rendering of a natural number, as `awk`'s `print` and `du -sb` write it. */
  function Decimal(n: nat): (s: string)
    ensures |s| > 0 && AllDigits(s)
    ensures DigitsValue(s) == n
  {
    if n < 10 then [DigitChar(n)]
    else
      var prefix := Decimal(n / 10);
      var s := prefix + [DigitChar(n % 10)];
      assert s[..|s| - 1] == prefix;
      s
  }

  // ---------------------------------------------------------------------------
  // JavaScript

  /** The white space and line terminators that `trim` and `parseInt` skip. */
  predicate IsJsSpace(c: char) {
    || c == ' ' || c == '\t' || c == '\n' || c == '\r'
    || c == '\U{000B}' || c == '\U{000C}' || c == '\U{00A0}' || c == '\U{FEFF}'
    || c == '\U{1680}' || ('\U{2000}' <= c <= '\U{200A}')
    || c == '\U{2028}' || c == '\U{2029}' || c == '\U{202F}' || c == '\U{205F}' || c == '\U{3000}'
  }

  /** Drops the leading white space: the result is the suffix of `s` starting at its first non-space character. */
  function TrimStartJs(s: string): (r: string)
    ensures |r| <= |s| && r == s[|s| - |r|..]
    ensures forall i :: 0 <= i < |s| - |r| ==> IsJsSpace(s[i])
    ensures |r| > 0 ==> !IsJsSpace(r[0])
  {
    if |s| > 0 && IsJsSpace(s[0]) then TrimStartJs(s[1..]) else s
  }

  /** Drops the trailing white space: the result is the prefix of `s` ending at its last non-space character. */
  function TrimEndJs(s: string): (r: string)
    ensures |r| <= |s| && r == s[..|r|]
    ensures forall i :: |r| <= i < |s| ==> IsJsSpace(s[i])
    ensures |r| > 0 ==> !IsJsSpace(r[|r| - 1])
  {
    if |s| > 0 && IsJsSpace(s[|s| - 1]) then TrimEndJs(s[..|s| - 1]) else s
  }

  /** `s.trim()`. */
  function TrimJs(s: string): string {
    TrimEndJs(TrimStartJs(s))
  }

  /** The longest prefix of `s` made of decimal digits. */
  function LeadingDigits(s: string): (r: string)
    ensures StartsWith(s, r) && AllDigits(r)
    ensures |r| < |s| ==> !IsDigit(s[|r|])
  {
    if |s| > 0 && IsDigit(s[0]) then [s[0]] + LeadingDigits(s[1..]) else []
  }

  /**
    `parseInt(s)` without a radix: skip leading white space, accept one sign,
    then read the longest run of decimal digits; no digit at all gives NaN,
    modelled as `None`.  Characters after the digits are ignored.
   */
  function JsParseInt(s: string): (r: Option<int>)
    ensures var t := TrimStartJs(s); var body := t[SignLength(t)..];
      (r.None? <==> |body| == 0 || !IsDigit(body[0])) && (r.Some? && r.value < 0 ==> t[0] == '-')
    ensures var t := TrimStartJs(s); var d := LeadingDigits(t[SignLength(t)..]);
      r.Some? ==> r.value == (if t[0] == '-' then -(DigitsValue(d) as int) else DigitsValue(d))
  {
    var t := TrimStartJs(s);
    var negative := |t| > 0 && t[0] == '-';
    var body := if |t| > 0 && (t[0] == '-' || t[0] == '+') then t[1..] else t;
    var digits := LeadingDigits(body);
    var magnitude: int := if |digits| == 0 then 0 else DigitsValue(digits);
    if |digits| == 0 then None
    else if negative then Some(-magnitude)
    else Some(magnitude)
  }

  /** `parseInt(s.trim()) || 0`: NaN and zero both become 0. */
  function ParseIntOrZero(s: string): (r: int)
    ensures JsParseInt(TrimJs(s)).None? ==> r == 0
    ensures JsParseInt(TrimJs(s)).Some? ==> r == JsParseInt(TrimJs(s)).value
    ensures r != 0 ==> JsParseInt(TrimJs(s)) == Some(r)
  {
    match JsParseInt(TrimJs(s))
    case None => 0
    case Some(v) => v
  }

  lemma {:induction false} LeadingDigitsOfDigits(ds: string, tail: string)
    requires AllDigits(ds)
    requires tail == [] || !IsDigit(tail[0])
    ensures LeadingDigits(ds + tail) == ds
  {
    if |ds| > 0 {
      assert (ds + tail)[1..] == ds[1..] + tail;
      LeadingDigitsOfDigits(ds[1..], tail);
      assert [ds[0]] + ds[1..] == ds;
    } else {
      assert ds + tail == tail;
    }
  }

  lemma {:induction false} TrimEndKeepsDigits(ds: string, tail: string)
    requires |ds| > 0 && AllDigits(ds)
    requires forall i :: 0 <= i < |tail| ==> IsJsSpace(tail[i])
    ensures TrimEndJs(ds + tail) == ds
    decreases |tail|
  {
    if |tail| == 0 {
      assert ds + tail == ds;
      assert !IsJsSpace(ds[|ds| - 1]);
    } else {
      var s := ds + tail;
      assert IsJsSpace(s[|s| - 1]);
      assert s[..|s| - 1] == ds + tail[..|tail| - 1];
      TrimEndKeepsDigits(ds, tail[..|tail| - 1]);
    }
  }

  lemma JsParseIntDecimal(n: nat)
    ensures JsParseInt(Decimal(n)) == Some(n)
  {
    var ds := Decimal(n);
    assert !IsJsSpace(ds[0]);
    assert TrimStartJs(ds) == ds;
    assert ds[0] != '-' && ds[0] != '+';
    LeadingDigitsOfDigits(ds, []);
    assert ds + [] == ds;
  }

  /**
    Reading back a number the way `awk` prints it: the decimal rendering
    followed by white space parses to the number itself.
   */
  lemma ParseIntOrZeroDecimal(n: nat, tail: string)
    requires forall i :: 0 <= i < |tail| ==> IsJsSpace(tail[i])
    ensures ParseIntOrZero(Decimal(n) + tail) == n
  {
    var ds := Decimal(n);
    var s := ds + tail;
    assert s[0] == ds[0];
    assert !IsJsSpace(s[0]);
    assert TrimStartJs(s) == s;
    TrimEndKeepsDigits(ds, tail);
    assert TrimJs(s) == ds;
    JsParseIntDecimal(n);
  }

  /** Text with no digit at all does not parse, so it counts as 0. */
  lemma NoDigitsIsZero(s: string)
    requires forall i :: 0 <= i < |s| ==> !IsDigit(s[i])
    ensures ParseIntOrZero(s) == 0
  {
    var t := TrimStartJs(TrimJs(s));
    var body := if |t| > 0 && (t[0] == '-' || t[0] == '+') then t[1..] else t;
    assert forall i :: 0 <= i < |body| ==> !IsDigit(body[i]);
    assert |LeadingDigits(body)| == 0 by {
      if |body| > 0 {
        assert !IsDigit(body[0]);
      }
    }
  }

  // ---------------------------------------------------------------------------
  // Go

  /** `unicode.IsSpace`: the separators `strings.Fields` splits on. */
  predicate IsGoSpace(c: char) {
    || c == ' ' || c == '\t' || c == '\n' || c == '\r'
    || c == '\U{000B}' || c == '\U{000C}' || c == '\U{0085}' || c == '\U{00A0}'
    || c == '\U{1680}' || ('\U{2000}' <= c <= '\U{200A}')
    || c == '\U{2028}' || c == '\U{2029}' || c == '\U{202F}' || c == '\U{205F}' || c == '\U{3000}'
  }

  predicate NoGoSpace(s: string) {
    forall i :: 0 <= i < |s| ==> !IsGoSpace(s[i])
  }

  predicate AllGoSpace(s: string) {
    forall i :: 0 <= i < |s| ==> IsGoSpace(s[i])
  }

  function SkipGoSpace(s: string): (r: string)
    ensures |r| <= |s| && r == s[|s| - |r|..]
    ensures AllGoSpace(s[..|s| - |r|])
    ensures |r| > 0 ==> !IsGoSpace(r[0])
  {
    if |s| > 0 && IsGoSpace(s[0]) then
      var r := SkipGoSpace(s[1..]);
      assert s[..|s| - |r|] == [s[0]] + s[1..][..|s[1..]| - |r|];
      r
    else s
  }

  /** The longest prefix of `s` without white space. */
  function Word(s: string): (r: string)
    ensures StartsWith(s, r) && NoGoSpace(r)
    ensures |r| < |s| ==> IsGoSpace(s[|r|])
  {
    if |s| > 0 && !IsGoSpace(s[0]) then [s[0]] + Word(s[1..]) else []
  }

  /** `strings.Fields(s)`: the maximal runs of non-space characters, in order. */
  function Fields(s: string): (r: seq<string>)
    ensures forall f :: f in r ==> |f| > 0 && NoGoSpace(f)
    ensures |r| == 0 <==> AllGoSpace(s)
    decreases |s|
  {
    var t := SkipGoSpace(s);
    if |t| == 0 then
      assert s[..|s|] == s;
      []
    else
      var w := Word(t);
      FieldsNotAllSpace(s, t);
      [w] + Fields(t[|w|..])
  }

  lemma FieldsNotAllSpace(s: string, t: string)
    requires |t| > 0 && t == SkipGoSpace(s)
    ensures !AllGoSpace(s) && |Word(t)| > 0
  {
    assert s[|s| - |t|] == t[0];
  }

  const MinInt64: int := -0x8000_0000_0000_0000
  const MaxInt64: int := 0x7FFF_FFFF_FFFF_FFFF

  /** The two `*strconv.NumError` kinds `ParseInt` reports. */
  datatype NumError = ErrSyntax | ErrRange

  /** Length of the optional leading `+` or `-`. */
  function SignLength(s: string): nat {
    if |s| > 0 && (s[0] == '+' || s[0] == '-') then 1 else 0
  }

  /** The decimal syntax `ParseInt` accepts: an optional sign, then at least one digit and nothing else. */
  predicate SignedDecimal(s: string) {
    |s| > SignLength(s) && AllDigits(s[SignLength(s)..])
  }

  /** The mathematical value a signed decimal denotes, before any range check. */
  function SignedValue(s: string): int
    requires SignedDecimal(s)
  {
    var magnitude: int := DigitsValue(s[SignLength(s)..]);
    if s[0] == '-' then -magnitude else magnitude
  }

  /**
    `strconv.ParseInt(s, 10, 64)`: one optional sign, then one or more decimal
    digits and nothing else; a well-formed value outside the signed 64-bit
    range is a range error.
   */
  function ParseInt64(s: string): (r: Result<int, NumError>)
    ensures r.Ok? ==> MinInt64 <= r.value <= MaxInt64
    ensures r.Ok? ==> |s| > 0 && (IsDigit(s[0]) || s[0] == '+' || s[0] == '-')
    ensures !SignedDecimal(s) ==> r == Err(ErrSyntax)
    ensures SignedDecimal(s) && MinInt64 <= SignedValue(s) <= MaxInt64 ==> r == Ok(SignedValue(s))
    ensures SignedDecimal(s) && !(MinInt64 <= SignedValue(s) <= MaxInt64) ==> r == Err(ErrRange)
  {
    if |s| == 0 then Err(ErrSyntax)
    else
      var body := if s[0] == '+' || s[0] == '-' then s[1..] else s;
      if |body| == 0 || !AllDigits(body) then Err(ErrSyntax)
      else
        var magnitude: int := DigitsValue(body);
        var v := if s[0] == '-' then -magnitude else magnitude;
        if v < MinInt64 || v > MaxInt64 then Err(ErrRange) else Ok(v)
  }

  /** The decimal rendering of any 64-bit non-negative value parses back to it. */
  lemma ParseInt64Decimal(n: nat)
    requires n <= MaxInt64
    ensures ParseInt64(Decimal(n)) == Ok(n)
  {
    var s := Decimal(n);
    assert IsDigit(s[0]);
  }

  /** A negative rendering parses back too, down to the smallest 64-bit value. */
  lemma ParseInt64NegativeDecimal(n: nat)
    requires n <= -MinInt64
    ensures ParseInt64("-" + Decimal(n)) == Ok(-(n as int))
  {
    var s := "-" + Decimal(n);
    assert s[1..] == Decimal(n);
  }

  /** A value one past the largest 64-bit integer is refused as out of range. */
  lemma ParseInt64Overflow()
    ensures ParseInt64(Decimal(MaxInt64 + 1)) == Err(ErrRange)
  {
    var s := Decimal(MaxInt64 + 1);
    assert IsDigit(s[0]);
  }

  lemma {:induction false} WordOfWord(w: string, tail: string)
    requires NoGoSpace(w)
    requires tail == [] || IsGoSpace(tail[0])
    ensures Word(w + tail) == w
  {
    if |w| > 0 {
      assert (w + tail)[1..] == w[1..] + tail;
      WordOfWord(w[1..], tail);
      assert [w[0]] + w[1..] == w;
    } else {
      assert w + tail == tail;
    }
  }

  lemma {:induction false} SkipLeadingSpace(lead: string, t: string)
    requires AllGoSpace(lead)
    ensures SkipGoSpace(lead + t) == SkipGoSpace(t)
    decreases |lead|
  {
    if |lead| > 0 {
      assert (lead + t)[1..] == lead[1..] + t;
      SkipLeadingSpace(lead[1..], t);
    } else {
      assert lead + t == t;
    }
  }

  /** Leading white space contributes no field. */
  lemma FieldsSkipSpace(lead: string, t: string)
    requires AllGoSpace(lead)
    ensures Fields(lead + t) == Fields(t)
  {
    SkipLeadingSpace(lead, t);
  }

  /** A maximal run of non-space characters at the start is the first field; the rest is split alike. */
  lemma FieldsOfWord(w: string, rest: string)
    requires |w| > 0 && NoGoSpace(w)
    requires rest == [] || IsGoSpace(rest[0])
    ensures Fields(w + rest) == [w] + Fields(rest)
  {
    var t := w + rest;
    assert SkipGoSpace(t) == t by {
      assert !IsGoSpace(t[0]);
    }
    WordOfWord(w, rest);
    assert t[|w|..] == rest;
  }

  /**
    `Fields` one step at a time: white space, then a maximal run of
    non-space characters, then the rest.  The run is the next field and the
    rest is split the same way; together with `Fields(s) == []` exactly for
    all-space `s`, this fixes the fields of every text.
   */
  lemma FieldsStep(lead: string, w: string, rest: string)
    requires AllGoSpace(lead)
    requires |w| > 0 && NoGoSpace(w)
    requires rest == [] || IsGoSpace(rest[0])
    ensures Fields(lead + (w + rest)) == [w] + Fields(rest)
  {
    FieldsSkipSpace(lead, w + rest);
    FieldsOfWord(w, rest);
  }

  /** A leading word followed by white space is the first of the fields. */
  lemma FieldsHead(w: string, tail: string)
    requires |w| > 0 && NoGoSpace(w)
    requires tail == [] || IsGoSpace(tail[0])
    ensures |Fields(w + tail)| > 0 && Fields(w + tail)[0] == w
  {
    FieldsOfWord(w, tail);
  }

  /** Words joined by single spaces, the shape `strings.Fields` undoes. */
  function JoinWords(ws: seq<string>): string
    decreases |ws|
  {
    if |ws| == 0 then []
    else if |ws| == 1 then ws[0]
    else ws[0] + (" " + JoinWords(ws[1..]))
  }

  lemma FieldsOfSingleWord(w: string)
    requires |w| > 0 && NoGoSpace(w)
    ensures Fields(w) == [w]
  {
    FieldsOfWord(w, []);
    assert w + [] == w;
    assert Fields([]) == [];
  }

  lemma JoinStep(w: string, rest: string)
    requires |w| > 0 && NoGoSpace(w)
    ensures Fields(w + (" " + rest)) == [w] + Fields(rest)
  {
    assert IsGoSpace((" " + rest)[0]);
    FieldsOfWord(w, " " + rest);
    FieldsSkipSpace(" ", rest);
  }

  /** Splitting space-joined words gives the words back, in order. */
  lemma {:induction false} FieldsOfJoinWords(ws: seq<string>)
    requires forall i :: 0 <= i < |ws| ==> |ws[i]| > 0 && NoGoSpace(ws[i])
    ensures Fields(JoinWords(ws)) == ws
    decreases |ws|
  {
    if |ws| == 1 {
      FieldsOfSingleWord(ws[0]);
    } else if |ws| > 1 {
      var tail := ws[1..];
      assert [ws[0]] + tail == ws;
      FieldsOfJoinWords(tail);
      JoinCons(ws[0], tail);
    }
  }

  lemma JoinCons(w: string, tail: seq<string>)
    requires |w| > 0 && NoGoSpace(w) && |tail| > 0
    requires Fields(JoinWords(tail)) == tail
    ensures Fields(JoinWords([w] + tail)) == [w] + tail
  {
    JoinUnfold(w, tail);
    JoinStep(w, JoinWords(tail));
  }

  lemma JoinUnfold(w: string, tail: seq<string>)
    requires |tail| > 0
    ensures JoinWords([w] + tail) == w + (" " + JoinWords(tail))
  {
    assert ([w] + tail)[1..] == tail;
  }
}

=== FILE: panel_url.dfy ===
/**
  Normalisation of the configured control-panel base URL.  All three variants
  prepend "http://" when neither scheme prefix is present; the Node and Go
  variants then drop one trailing "/", the older JavaScript variant does not.
 */
module PanelUrl {
  import opened Common

  const Http: string := "http://"
  const Https: string := "https://"

  predicate HasScheme(url: string) {
    StartsWith(url, Http) || StartsWith(url, Https)
  }

  /** The shared first step: prefix "http://" unless the URL already names a scheme. */
  function WithScheme(url: string): (r: string)
    ensures HasScheme(r)
    ensures HasScheme(url) ==> r == url
    ensures !HasScheme(url) ==> StartsWith(r, Http) && r[|Http|..] == url
  {
    if HasScheme(url) then url
    else
      var r := Http + url;
      assert r[..|Http|] == Http;
      r
  }

  /** The older JavaScript variant: scheme prefixing only, no slash trimming. */
  function NormalizeSrc(url: string): (r: string)
    ensures HasScheme(r)
    ensures HasScheme(url) ==> r == url
    ensures !HasScheme(url) ==> r == Http + url
  {
    if HasScheme(url) then url else Http + url
  }

  /** The Node variant: scheme prefixing, then `slice(0, -1)` when the URL ends with "/". */
  function NormalizeNode(url: string): (r: string)
    ensures var p := WithScheme(url); StartsWith(p, r) && |p| - 1 <= |r| <= |p|
    ensures var p := WithScheme(url); |r| < |p| <==> EndsWith(p, "/")
  {
    var p := WithScheme(url);
    if EndsWith(p, "/") then p[..|p| - 1] else p
  }

  /** Go's `strings.TrimSuffix(s, suffix)`: removes one occurrence of the suffix, if present. */
  function TrimSuffix(s: string, suffix: string): (r: string)
    ensures EndsWith(s, suffix) ==> r + suffix == s
    ensures !EndsWith(s, suffix) ==> r == s
  {
    if EndsWith(s, suffix) then s[..|s| - |suffix|] else s
  }

  /** The Go variant's `loadConfig`: scheme prefixing, then `TrimSuffix(url, "/")`. */
  function NormalizeGo(url: string): (r: string)
    ensures EndsWith(WithScheme(url), "/") ==> r + "/" == WithScheme(url)
    ensures !EndsWith(WithScheme(url), "/") ==> r == WithScheme(url)
  {
    TrimSuffix(WithScheme(url), "/")
  }

  /** The Go and Node normalisations coincide on every input. */
  lemma GoMatchesNode(url: string)
    ensures NormalizeGo(url) == NormalizeNode(url)
  {
  }

  /** An already-schemed URL changes by at most one trailing slash, and nothing else. */
  lemma SchemedUrlOnlyLosesSlash(url: string)
    requires HasScheme(url)
    ensures NormalizeNode(url) == url || NormalizeNode(url) + "/" == url
    ensures NormalizeSrc(url) == url
  {
    var r := NormalizeNode(url);
    if |r| < |url| {
      assert url == r + "/";
    }
  }

  /**
    When the prefixed URL does not end in "//", the Node normalisation yields a
    schemed URL without a trailing slash, and normalising again changes nothing.
   */
  lemma NormalizeNodeStable(url: string)
    requires !EndsWith(WithScheme(url), "//")
    ensures HasScheme(NormalizeNode(url))
    ensures !EndsWith(NormalizeNode(url), "/")
    ensures NormalizeNode(NormalizeNode(url)) == NormalizeNode(url)
  {
  }

  /** The bare scheme "http://" is cut to "http:/", which no longer names a scheme. */
  lemma BareSchemeLosesScheme()
    ensures NormalizeNode(Http) == "http:/"
    ensures !HasScheme(NormalizeNode(Http))
  {
    assert EndsWith(Http, "/");
    assert !StartsWith("http:/", Https);
  }

  /** A schemed URL ending in two slashes keeps one: only a single "/" is ever removed. */
  lemma DoubleSlashKeepsOne(url: string)
    requires HasScheme(url)
    ensures NormalizeNode(url + "//") == url + "/"
  {
    var p := url + "//";
    assert p[..|Http|] == url[..|Http|] by {
      if StartsWith(url, Http) {
        assert p[..|Http|] == url[..|Http|];
      }
    }
    assert StartsWith(url, Https) ==> p[..|Https|] == url[..|Https|];
    assert HasScheme(p);
    assert p[|p| - 1..] == "/";
    assert p[..|p| - 1] == url + "/";
  }
}

=== FILE: servers.dfy ===
/**
  The control panel's server list as the two JavaScript variants see it, the
  snapshot cache in front of it, and uuid matching against volume names.
 */
module Servers {
  import opened Common

  /** One element of `data` in `GET /api/application/servers`: `attributes.{id, uuid, name, limits.disk}`. */
  datatype Server = Server(id: int, uuid: string, name: string, disk: int)

  /** A response body; `data` is absent when the body does not carry the list. */
  datatype ServerList = ServerList(data: Option<seq<Server>>)

  /** The stubbed list request: it threw, or it answered with a body (`None` for a null body). */
  datatype Fetch = FetchFailed | Fetched(body: Option<ServerList>)

  /** The snapshot cache after one read, the list it yielded, and whether the panel was asked. */
  datatype SnapshotUse = SnapshotUse(cached: Option<ServerList>, servers: Option<seq<Server>>, fetched: bool)

  /**
    `serversCache.get("servers_list")`, falling back to the request and
    `serversCache.set` when nothing is cached.  A failed request throws past
    the `set`, so the cache keeps its previous (absent) content.
   */
  function UseSnapshot(cached: Option<ServerList>, fetch: Fetch): (r: SnapshotUse)
    ensures cached.Some? ==> !r.fetched && r.cached == cached && r.servers == cached.value.data
    ensures cached.None? ==> r.fetched
    ensures fetch.FetchFailed? ==> r.cached == cached && (cached.None? ==> r.servers.None?)
    ensures cached.None? && fetch.Fetched? ==> r.cached == fetch.body
    ensures r.servers == (if r.cached.Some? then r.cached.value.data else None)
  {
    if cached.Some? then SnapshotUse(cached, cached.value.data, false)
    else
      match fetch
      case FetchFailed => SnapshotUse(cached, None, true)
      case Fetched(body) => SnapshotUse(body, if body.Some? then body.value.data else None, true)
  }

  /** `limits.disk / 1024`: the disk limit (MiB) as GiB. */
  function QuotaGiB(s: Server): (r: real)
    ensures r * 1024.0 == s.disk as real
  {
    s.disk as real / 1024.0
  }

  /**
    Index of the first server whose uuid is `uuid`, or `|servers|` when none is:
    what `Array.prototype.find` returns.
   */
  function FirstMatch(servers: seq<Server>, uuid: string): (i: nat)
    ensures i <= |servers|
    ensures i < |servers| ==> servers[i].uuid == uuid
    ensures forall j :: 0 <= j < i ==> servers[j].uuid != uuid
  {
    if |servers| == 0 || servers[0].uuid == uuid then 0
    else 1 + FirstMatch(servers[1..], uuid)
  }

  /** Index of the last server whose uuid is `uuid`, or -1 when none is. */
  function LastMatch(servers: seq<Server>, uuid: string): (i: int)
    ensures -1 <= i < |servers|
    ensures i >= 0 ==> servers[i].uuid == uuid
    ensures forall j :: i < j < |servers| ==> servers[j].uuid != uuid
  {
    if |servers| == 0 then -1
    else
      var k := LastMatch(servers[1..], uuid);
      if k >= 0 then k + 1
      else if servers[0].uuid == uuid then 0
      else -1
  }
}

=== FILE: src_daemon.dfy ===
/**
  The older JavaScript variant of the daemon: tenant records that also hold the
  last measured size, a cumulative-growth store, three abuse rules with a fixed
  precedence, and a suspend call for flagged volumes of resolved tenants.
 */
module SrcDaemon {
  import opened Common
  import opened Enumeration
  import opened Servers
  import opened Measure

  /**
    A cached record `{ internal_id, size, max_size }`, sizes in GiB.  `max_size`
    is absent from records written after an unflagged check.
   */
  datatype TenantRecord = TenantRecord(internalId: int, size: real, maxSize: Option<real>)

  /** The fallback `{ internal_id: 0, size: 0 }` for a volume without a record. */
  const Unseen: TenantRecord := TenantRecord(0, 0.0, None)

  /**
    The three caches: tenant records, the cumulative change per volume (stored
    as a decimal string in the source, a number here) and the server-list snapshot.
   */
  datatype State = State(records: map<string, TenantRecord>, drift: map<string, real>, snapshot: Option<ServerList>)

  /** The configured `check_interval_threshold_in_gb` and `cumulative_change_threshold_in_gb`. */
  datatype Thresholds = Thresholds(interval: real, cumulative: real)

  /** The reasons the notification names, in order of precedence. */
  datatype Reason = SuddenIncrease | CumulativeIncrease | StorageLimitExceeded

  /** Side effects of this variant, in the order they are issued. */
  datatype Action =
    | Notify(volume: string, reason: Reason)
    | Suspend(volume: string, internalId: int, ok: bool)

  function Lookup(records: map<string, TenantRecord>, volume: string): TenantRecord {
    GetOr(records, volume, Unseen)
  }

  function RecordOf(s: Server, sizeGiB: real): TenantRecord {
    TenantRecord(s.id, sizeGiB, Some(QuotaGiB(s)))
  }

  // ---------------------------------------------------------------------------
  // Refresh from the server list

  /**
    The inner `for (const server of serversListData.data)` loop for one volume:
    every server whose uuid matches overwrites the record, so the last one wins.
   */
  function ApplyServers(records: map<string, TenantRecord>, servers: seq<Server>, volume: string, sizeGiB: real)
    : (r: map<string, TenantRecord>)
    ensures LastMatch(servers, volume) >= 0 ==> r == records[volume := RecordOf(servers[LastMatch(servers, volume)], sizeGiB)]
    ensures LastMatch(servers, volume) < 0 ==> r == records
    decreases |servers|
  {
    if |servers| == 0 then records
    else
      var next := if servers[0].uuid == volume then records[volume := RecordOf(servers[0], sizeGiB)] else records;
      var r := ApplyServers(next, servers[1..], volume, sizeGiB);
      assert LastMatch(servers[1..], volume) >= 0 ==> servers[1..][LastMatch(servers[1..], volume)] == servers[LastMatch(servers, volume)];
      r
  }

  /**
    The outcome a refresh promises: every listed volume with a matching server
    holds the record of the last match, with the size measured during the
    refresh; every other volume keeps its record, or keeps having none.
   */
  ghost predicate Refreshed(before: map<string, TenantRecord>, after: map<string, TenantRecord>,
                            servers: seq<Server>, volumes: seq<string>, measure: string -> real)
  {
    && (forall v :: v in volumes && LastMatch(servers, v) >= 0 ==>
          v in after && after[v] == RecordOf(servers[LastMatch(servers, v)], measure(v)))
    && (forall v :: !(v in volumes && LastMatch(servers, v) >= 0) ==> SameAt(before, after, v))
  }

  /** The outer `for (const volume of volumes)` loop, measuring each volume before matching it. */
  function AssignIds(records: map<string, TenantRecord>, servers: seq<Server>, volumes: seq<string>,
                     measure: string -> real): (r: map<string, TenantRecord>)
    ensures Refreshed(records, r, servers, volumes, measure)
    decreases |volumes|
  {
    if |volumes| == 0 then records
    else
      var v := volumes[0];
      var next := ApplyServers(records, servers, v, measure(v));
      var r := AssignIds(next, servers, volumes[1..], measure);
      RefreshedCons(records, next, r, servers, volumes, measure);
      r
  }

  /** Refreshing the first volume, then the rest, refreshes the whole list. */
  lemma RefreshedCons(records: map<string, TenantRecord>, next: map<string, TenantRecord>,
                      after: map<string, TenantRecord>, servers: seq<Server>, volumes: seq<string>,
                      measure: string -> real)
    requires |volumes| > 0
    requires next == ApplyServers(records, servers, volumes[0], measure(volumes[0]))
    requires Refreshed(next, after, servers, volumes[1..], measure)
    ensures Refreshed(records, after, servers, volumes, measure)
  {
    var v, tail := volumes[0], volumes[1..];
    forall w | w in volumes && LastMatch(servers, w) >= 0
      ensures w in after && after[w] == RecordOf(servers[LastMatch(servers, w)], measure(w))
    {
      if w !in tail {
        assert w == v && SameAt(next, after, w);
      }
    }
    forall w | !(w in volumes && LastMatch(servers, w) >= 0)
      ensures SameAt(records, after, w)
    {
      assert w !in tail || LastMatch(servers, w) < 0;
      assert SameAt(next, after, w);
      assert w != v || LastMatch(servers, v) < 0;
    }
  }

  datatype Reconciled = Reconciled(state: State, fetched: bool)

  /**
    `cacheInternalIDs`: reads the snapshot (asking the panel only when none is
    cached) and refreshes the records of the listed volumes from it.  Without
    a list nothing changes; the cumulative store is never touched here.
   */
  function CacheInternalIds(st: State, volumes: seq<string>, fetch: Fetch, measure: string -> real)
    : (r: Reconciled)
    ensures st.snapshot.Some? ==> !r.fetched && r.state.snapshot == st.snapshot
    ensures st.snapshot.None? ==> r.fetched
    ensures r.state.snapshot == UseSnapshot(st.snapshot, fetch).cached
    ensures fetch.FetchFailed? && st.snapshot.None? ==> r.state == st
    ensures r.state.drift == st.drift
    ensures var u := UseSnapshot(st.snapshot, fetch);
      && (u.servers.Some? ==> Refreshed(st.records, r.state.records, u.servers.value, volumes, measure))
      && (u.servers.None? ==> r.state.records == st.records)
    ensures forall v :: v !in volumes ==> SameAt(st.records, r.state.records, v)
  {
    var u := UseSnapshot(st.snapshot, fetch);
    match u.servers
    case None => Reconciled(State(st.records, st.drift, u.cached), u.fetched)
    case Some(servers) =>
      Reconciled(State(AssignIds(st.records, servers, volumes, measure), st.drift, u.cached), u.fetched)
  }

  // ---------------------------------------------------------------------------
  // Classification

  /** The cumulative change after one measurement: only growth since the recorded size accumulates. */
  function AccumulateDrift(sizeGiB: real, previousGiB: real, drift: real): (r: real)
    ensures r >= drift
    ensures sizeGiB > previousGiB ==> r - drift == sizeGiB - previousGiB
    ensures sizeGiB <= previousGiB ==> r == drift
  {
    if sizeGiB > previousGiB then drift + (sizeGiB - previousGiB) else drift
  }

  /** Rule 1: growth since the recorded size reaches the interval threshold. */
  predicate SuddenGrowth(sizeGiB: real, rec: TenantRecord, th: Thresholds) {
    sizeGiB - rec.size >= th.interval
  }

  /** Rule 2: the updated cumulative change reaches the cumulative threshold. */
  predicate CumulativeGrowth(drift: real, th: Thresholds) {
    drift >= th.cumulative
  }

  /**
    Rule 3 as written: the size times 1024 against a `max_size` already in GiB.
    An absent `max_size` compares as `undefined > 0`, which is false.
   */
  predicate QuotaBreached(sizeGiB: real, rec: TenantRecord): (r: bool)
    ensures r <==> rec.maxSize.Some? && rec.maxSize.value > 0.0 && sizeGiB > rec.maxSize.value / 1024.0
  {
    rec.maxSize.Some? && rec.maxSize.value > 0.0 && sizeGiB * 1024.0 > rec.maxSize.value
  }

  /** The condition that sends a volume down the enforcement branch. */
  predicate Flagged(sizeGiB: real, rec: TenantRecord, drift: real, th: Thresholds): (r: bool)
    ensures !r ==> sizeGiB - rec.size < th.interval && drift < th.cumulative
    ensures rec.maxSize.None? ==> (r <==> sizeGiB - rec.size >= th.interval || drift >= th.cumulative)
  {
    SuddenGrowth(sizeGiB, rec, th) || CumulativeGrowth(drift, th) || QuotaBreached(sizeGiB, rec)
  }

  /**
    The `if / else if / else if` chain that picks the reported reason.  A
    reason is reported exactly when the volume is flagged, and an earlier rule
    masks every later one.
   */
  function ReasonFor(sizeGiB: real, rec: TenantRecord, drift: real, th: Thresholds): (r: Option<Reason>)
    ensures r.Some? <==> Flagged(sizeGiB, rec, drift, th)
    ensures SuddenGrowth(sizeGiB, rec, th) ==> r == Some(SuddenIncrease)
    ensures !SuddenGrowth(sizeGiB, rec, th) && CumulativeGrowth(drift, th) ==> r == Some(CumulativeIncrease)
    ensures !SuddenGrowth(sizeGiB, rec, th) && !CumulativeGrowth(drift, th) && QuotaBreached(sizeGiB, rec) ==>
      r == Some(StorageLimitExceeded)
    ensures r == Some(SuddenIncrease) ==> SuddenGrowth(sizeGiB, rec, th)
    ensures r == Some(CumulativeIncrease) ==> !SuddenGrowth(sizeGiB, rec, th) && CumulativeGrowth(drift, th)
    ensures r == Some(StorageLimitExceeded) ==>
      !SuddenGrowth(sizeGiB, rec, th) && !CumulativeGrowth(drift, th) && QuotaBreached(sizeGiB, rec)
  {
    if sizeGiB - rec.size >= th.interval then Some(SuddenIncrease)
    else if drift >= th.cumulative then Some(CumulativeIncrease)
    else if rec.maxSize.Some? && rec.maxSize.value > 0.0 && sizeGiB * 1024.0 > rec.maxSize.value then Some(StorageLimitExceeded)
    else None
  }

  /** A record without `max_size`, such as the fallback, never breaches the quota. */
  lemma NoQuotaNeverBreached(sizeGiB: real, rec: TenantRecord)
    requires rec.maxSize.None? || rec.maxSize.value <= 0.0
    ensures forall drift, th :: ReasonFor(sizeGiB, rec, drift, th) != Some(StorageLimitExceeded)
  {
  }

  /**
    The quota rule as written fires at 1/1024 of the quota: a 10 GiB limit
    (`limits.disk` 10240) is reported as exceeded by a volume of 0.5 GiB.
   */
  lemma QuotaFiresFarBelowLimit()
    ensures var rec := TenantRecord(7, 0.5, Some(QuotaGiB(Server(7, "u", "n", 10240))));
      ReasonFor(0.5, rec, 0.0, Thresholds(5.0, 20.0)) == Some(StorageLimitExceeded)
  {
    assert QuotaGiB(Server(7, "u", "n", 10240)) == 10.0;
  }

  /** Quota 10, previous 9, current 12: below a 5 GiB interval threshold the quota rule reports. */
  lemma QuotaScenario()
    ensures ReasonFor(12.0, TenantRecord(1, 9.0, Some(10.0)), AccumulateDrift(12.0, 9.0, 0.0), Thresholds(5.0, 20.0))
      == Some(StorageLimitExceeded)
    ensures ReasonFor(12.0, TenantRecord(1, 9.0, Some(10.0)), AccumulateDrift(12.0, 9.0, 0.0), Thresholds(2.0, 20.0))
      == Some(SuddenIncrease)
  {
  }

  // ---------------------------------------------------------------------------
  // One volume of `main`

  datatype Step = Step(state: State, trace: seq<Action>)

  /** Every stored cumulative change is non-negative. */
  ghost predicate DriftNonNegative(drift: map<string, real>) {
    forall v :: v in drift ==> drift[v] >= 0.0
  }

  /**
    One volume of `main`.  A flagged volume is notified about (when a webhook
    is configured) and, for a resolved tenant, suspended; only a successful
    suspension touches the stores, resetting the cumulative change to 0.  An
    unflagged volume's record becomes `{ internal_id, size }`, dropping
    `max_size`, and its updated cumulative change is stored.
   */
  function CheckVolume(st: State, volume: string, sizeGiB: real, th: Thresholds, webhook: string, suspendOk: bool)
    : (r: Step)
    ensures r.state.snapshot == st.snapshot
    ensures forall v :: v != volume ==> SameAt(st.records, r.state.records, v) && SameAt(st.drift, r.state.drift, v)
    ensures var rec := Lookup(st.records, volume);
      var drift := AccumulateDrift(sizeGiB, rec.size, GetOr(st.drift, volume, 0.0));
      && (Flagged(sizeGiB, rec, drift, th) && rec.internalId > 0 && suspendOk ==>
            r.state.records == st.records && r.state.drift == st.drift[volume := 0.0])
      && (Flagged(sizeGiB, rec, drift, th) && !(rec.internalId > 0 && suspendOk) ==> r.state == st)
      && (!Flagged(sizeGiB, rec, drift, th) ==>
            && r.state.records == st.records[volume := TenantRecord(rec.internalId, sizeGiB, None)]
            && r.state.drift == st.drift[volume := drift]
            && r.trace == [])
      && (Flagged(sizeGiB, rec, drift, th) ==>
            r.trace == (if webhook == "" then [] else [Notify(volume, ReasonFor(sizeGiB, rec, drift, th).value)])
                       + (if rec.internalId > 0 then [Suspend(volume, rec.internalId, suspendOk)] else []))
      && (Suspend(volume, rec.internalId, suspendOk) in r.trace <==> Flagged(sizeGiB, rec, drift, th) && rec.internalId > 0)
      && (webhook != "" && Flagged(sizeGiB, rec, drift, th) ==> |r.trace| > 0 && r.trace[0] == Notify(volume, ReasonFor(sizeGiB, rec, drift, th).value))
      && (webhook == "" ==> forall a :: a in r.trace ==> !a.Notify?)
    ensures DriftNonNegative(st.drift) ==> DriftNonNegative(r.state.drift)
  {
    var rec := Lookup(st.records, volume);
    var drift := AccumulateDrift(sizeGiB, rec.size, GetOr(st.drift, volume, 0.0));
    match ReasonFor(sizeGiB, rec, drift, th)
    case Some(reason) =>
      var notice := if webhook == "" then [] else [Notify(volume, reason)];
      if rec.internalId > 0 then
        var drift' := if suspendOk then st.drift[volume := 0.0] else st.drift;
        Step(State(st.records, drift', st.snapshot), notice + [Suspend(volume, rec.internalId, suspendOk)])
      else
        Step(st, notice)
    case None =>
      Step(State(st.records[volume := TenantRecord(rec.internalId, sizeGiB, None)], st.drift[volume := drift], st.snapshot), [])
  }

  /** The `for (const volume of volumes)` loop of `main`. */
  function Sweep(st: State, volumes: seq<string>, measure: string -> real, th: Thresholds, webhook: string,
                 suspendOk: string -> bool): (r: Step)
    ensures r.state.snapshot == st.snapshot
    ensures forall v :: v !in volumes ==> SameAt(st.records, r.state.records, v) && SameAt(st.drift, r.state.drift, v)
    ensures DriftNonNegative(st.drift) ==> DriftNonNegative(r.state.drift)
    ensures forall a :: a in r.trace ==> a.volume in volumes
    ensures forall a :: a in r.trace && a.Suspend? ==> a.internalId > 0
    decreases |volumes|
  {
    if |volumes| == 0 then Step(st, [])
    else
      var v := volumes[0];
      var head := CheckVolume(st, v, measure(v), th, webhook, suspendOk(v));
      var tail := Sweep(head.state, volumes[1..], measure, th, webhook, suspendOk);
      assert forall a :: a in head.trace ==> a.volume == v && (a.Suspend? ==> a.internalId > 0);
      assert forall w :: w !in volumes ==> w != v && w !in volumes[1..];
      Step(tail.state, head.trace + tail.trace)
  }

  /** The actions of checking each volume on its own against the same state `st`, concatenated in order. */
  function ChecksFrom(st: State, volumes: seq<string>, measure: string -> real, th: Thresholds, webhook: string,
                      suspendOk: string -> bool): seq<Action>
    decreases |volumes|
  {
    if |volumes| == 0 then []
    else
      var v := volumes[0];
      CheckVolume(st, v, measure(v), th, webhook, suspendOk(v)).trace
        + ChecksFrom(st, volumes[1..], measure, th, webhook, suspendOk)
  }

  /** A check reads and writes only its own volume's record and cumulative change. */
  lemma CheckVolumeLocal(st: State, st': State, volume: string, sizeGiB: real, th: Thresholds, webhook: string,
                         suspendOk: bool)
    requires SameAt(st.records, st'.records, volume) && SameAt(st.drift, st'.drift, volume)
    ensures var r, r' := CheckVolume(st, volume, sizeGiB, th, webhook, suspendOk),
                         CheckVolume(st', volume, sizeGiB, th, webhook, suspendOk);
      && SameAt(r.state.records, r'.state.records, volume)
      && SameAt(r.state.drift, r'.state.drift, volume)
      && r.trace == r'.trace
  {
    assert Lookup(st.records, volume) == Lookup(st'.records, volume);
    assert GetOr(st.drift, volume, 0.0) == GetOr(st'.drift, volume, 0.0);
  }

  /** Two states that agree on every listed volume give the same independent checks. */
  lemma {:induction false} ChecksFromLocal(st: State, st': State, volumes: seq<string>, measure: string -> real,
                                           th: Thresholds, webhook: string, suspendOk: string -> bool)
    requires forall v :: v in volumes ==> SameAt(st.records, st'.records, v) && SameAt(st.drift, st'.drift, v)
    ensures ChecksFrom(st, volumes, measure, th, webhook, suspendOk) == ChecksFrom(st', volumes, measure, th, webhook, suspendOk)
    decreases |volumes|
  {
    if |volumes| > 0 {
      var v := volumes[0];
      assert v in volumes;
      CheckVolumeLocal(st, st', v, measure(v), th, webhook, suspendOk(v));
      assert forall w :: w in volumes[1..] ==> w in volumes;
      ChecksFromLocal(st, st', volumes[1..], measure, th, webhook, suspendOk);
    }
  }

  /**
    Over distinct volumes the loop is the same as checking every volume on its
    own against the state before the loop: each volume ends with the record
    and cumulative change its own check stores, and the actions are those
    checks' actions in listing order.
   */
  lemma {:induction false} SweepChecksEach(st: State, volumes: seq<string>, measure: string -> real, th: Thresholds,
                                           webhook: string, suspendOk: string -> bool)
    requires Distinct(volumes)
    ensures var r := Sweep(st, volumes, measure, th, webhook, suspendOk);
      && r.trace == ChecksFrom(st, volumes, measure, th, webhook, suspendOk)
      && forall v :: v in volumes ==>
           var c := CheckVolume(st, v, measure(v), th, webhook, suspendOk(v));
           SameAt(r.state.records, c.state.records, v) && SameAt(r.state.drift, c.state.drift, v)
    decreases |volumes|
  {
    if |volumes| > 0 {
      var v, rest := volumes[0], volumes[1..];
      var head := CheckVolume(st, v, measure(v), th, webhook, suspendOk(v));
      var r := Sweep(st, volumes, measure, th, webhook, suspendOk);
      assert Distinct(rest) by {
        forall i, j | 0 <= i < j < |rest| ensures rest[i] != rest[j] {
          assert rest[i] == volumes[i + 1] && rest[j] == volumes[j + 1];
        }
      }
      assert v !in rest by {
        forall i | 0 <= i < |rest| ensures rest[i] != v {
          assert rest[i] == volumes[i + 1];
        }
      }
      SweepChecksEach(head.state, rest, measure, th, webhook, suspendOk);
      ChecksFromLocal(head.state, st, rest, measure, th, webhook, suspendOk);
      forall w | w in volumes
        ensures var c := CheckVolume(st, w, measure(w), th, webhook, suspendOk(w));
          SameAt(r.state.records, c.state.records, w) && SameAt(r.state.drift, c.state.drift, w)
      {
        if w != v {
          assert w in rest;
          CheckVolumeLocal(head.state, st, w, measure(w), th, webhook, suspendOk(w));
        }
      }
    }
  }

  /** A volume's size in GiB from its `fs.statSync` result. */
  function SizesOf(stat: string -> Option<nat>): (r: string -> real)
    ensures forall v :: r(v) == VolumeSizeSrc(stat(v))
  {
    v => VolumeSizeSrc(stat(v))
  }

  datatype CycleResult = CycleResult(state: State, fetched: bool, trace: seq<Action>)

  /**
    One run of `main`: enumerate, refresh the records (measuring once), then
    measure and check every volume.  The two `fs.statSync` results per volume
    are inputs, each turned into GiB by `VolumeSizeSrc`.  Volumes that are not listed keep their
    records and cumulative changes, and no suspension targets an unresolved tenant.
   */
  function Cycle(st: State, listing: Option<seq<Entry>>, fetch: Fetch, refreshStat: string -> Option<nat>,
                 stat: string -> Option<nat>, th: Thresholds, webhook: string, suspendOk: string -> bool)
    : (r: CycleResult)
    ensures forall v :: v !in ListVolumesSrc(listing) ==> SameAt(st.records, r.state.records, v) && SameAt(st.drift, r.state.drift, v)
    ensures DriftNonNegative(st.drift) ==> DriftNonNegative(r.state.drift)
    ensures forall a :: a in r.trace ==> a.volume in ListVolumesSrc(listing) && (a.Suspend? ==> a.internalId > 0)
    ensures st.snapshot.Some? ==> !r.fetched && r.state.snapshot == st.snapshot
    ensures st.snapshot.None? <==> r.fetched
    ensures var volumes := ListVolumesSrc(listing);
      var refreshed := CacheInternalIds(st, volumes, fetch, SizesOf(refreshStat)).state;
      Distinct(volumes) ==>
        && r.trace == ChecksFrom(refreshed, volumes, SizesOf(stat), th, webhook, suspendOk)
        && forall v :: v in volumes ==>
             var c := CheckVolume(refreshed, v, VolumeSizeSrc(stat(v)), th, webhook, suspendOk(v));
             SameAt(r.state.records, c.state.records, v) && SameAt(r.state.drift, c.state.drift, v)
  {
    var volumes := ListVolumesSrc(listing);
    var rc := CacheInternalIds(st, volumes, fetch, SizesOf(refreshStat));
    var sw := Sweep(rc.state, volumes, SizesOf(stat), th, webhook, suspendOk);
    var r := CycleResult(sw.state, rc.fetched, sw.trace);
    if Distinct(volumes) then
      SweepChecksEach(rc.state, volumes, SizesOf(stat), th, webhook, suspendOk);
      r
    else r
  }

  // ---------------------------------------------------------------------------
  // Properties across checks

  /** The cumulative change after a run of unflagged checks, each storing its size as the next baseline. */
  function DriftAfter(previousGiB: real, drift: real, sizes: seq<real>): (r: real)
    ensures r >= drift
    decreases |sizes|
  {
    if |sizes| == 0 then drift
    else DriftAfter(sizes[0], AccumulateDrift(sizes[0], previousGiB, drift), sizes[1..])
  }

  /** Sizes that never rise above the previous one leave the cumulative change where it was. */
  lemma {:induction false} ShrinkingKeepsDrift(previousGiB: real, drift: real, sizes: seq<real>)
    requires |sizes| > 0 ==> sizes[0] <= previousGiB
    requires forall i :: 0 < i < |sizes| ==> sizes[i] <= sizes[i - 1]
    ensures DriftAfter(previousGiB, drift, sizes) == drift
    decreases |sizes|
  {
    if |sizes| > 0 {
      assert AccumulateDrift(sizes[0], previousGiB, drift) == drift;
      var rest := sizes[1..];
      assert forall i :: 0 < i < |rest| ==> rest[i] == sizes[i + 1] && rest[i - 1] == sizes[i];
      ShrinkingKeepsDrift(sizes[0], drift, rest);
    }
  }

  /**
    The cumulative change bounds the net growth: after a run of unflagged
    checks it is at least the last size minus the starting baseline.
   */
  lemma {:induction false} DriftBoundsNetGrowth(previousGiB: real, drift: real, sizes: seq<real>)
    requires |sizes| > 0
    ensures DriftAfter(previousGiB, drift, sizes) >= drift + sizes[|sizes| - 1] - previousGiB
    decreases |sizes|
  {
    var next := AccumulateDrift(sizes[0], previousGiB, drift);
    if |sizes| > 1 {
      DriftBoundsNetGrowth(sizes[0], next, sizes[1..]);
    }
  }

  /** Successive checks of one volume with the given sizes, the state carried from each to the next. */
  function Recheck(st: State, volume: string, sizes: seq<real>, th: Thresholds, webhook: string): (r: Step)
    ensures r.state.snapshot == st.snapshot
    decreases |sizes|
  {
    if |sizes| == 0 then Step(st, [])
    else
      var head := CheckVolume(st, volume, sizes[0], th, webhook, true);
      var tail := Recheck(head.state, volume, sizes[1..], th, webhook);
      Step(tail.state, head.trace + tail.trace)
  }

  /**
    With a webhook configured every flagged check sends a notice, so a run of
    checks that issues no action is a run of unflagged checks: the stored
    cumulative change is `DriftAfter` of the recorded size, and the record holds
    the last size.
   */
  lemma {:induction false} UnflaggedChecksFollowDriftAfter(st: State, volume: string, sizes: seq<real>, th: Thresholds,
                                                          webhook: string)
    requires webhook != ""
    requires Recheck(st, volume, sizes, th, webhook).trace == []
    ensures var after := Recheck(st, volume, sizes, th, webhook).state;
      && GetOr(after.drift, volume, 0.0)
           == DriftAfter(Lookup(st.records, volume).size, GetOr(st.drift, volume, 0.0), sizes)
      && (|sizes| > 0 ==> Lookup(after.records, volume).size == sizes[|sizes| - 1])
    decreases |sizes|
  {
    if |sizes| > 0 {
      var head := CheckVolume(st, volume, sizes[0], th, webhook, true);
      var tail := Recheck(head.state, volume, sizes[1..], th, webhook);
      assert head.trace == [] && tail.trace == [] by {
        assert head.trace + tail.trace == [];
      }
      SilentCheckIsUnflagged(st, volume, sizes[0], th, webhook);
      UnflaggedChecksFollowDriftAfter(head.state, volume, sizes[1..], th, webhook);
      if |sizes| > 1 {
        assert sizes[1..][|sizes[1..]| - 1] == sizes[|sizes| - 1];
      }
    }
  }

  /** One check that issues no action, with a webhook configured, stores the grown drift and the new size. */
  lemma SilentCheckIsUnflagged(st: State, volume: string, sizeGiB: real, th: Thresholds, webhook: string)
    requires webhook != ""
    requires CheckVolume(st, volume, sizeGiB, th, webhook, true).trace == []
    ensures var after := CheckVolume(st, volume, sizeGiB, th, webhook, true).state;
      var rec := Lookup(st.records, volume);
      && GetOr(after.drift, volume, 0.0) == AccumulateDrift(sizeGiB, rec.size, GetOr(st.drift, volume, 0.0))
      && Lookup(after.records, volume).size == sizeGiB
  {
  }

  /** After a successful suspension the next check that does not grow keeps the cumulative change at 0. */
  lemma ResetThenNoGrowth(st: State, volume: string, sizeGiB: real, th: Thresholds, webhook: string, ok: bool)
    requires volume in st.drift && st.drift[volume] == 0.0
    requires sizeGiB <= Lookup(st.records, volume).size
    ensures GetOr(CheckVolume(st, volume, sizeGiB, th, webhook, ok).state.drift, volume, 0.0) == 0.0
  {
  }

  /**
    A refresh stores the size it measured, so a volume that matched a server
    and did not change between the refresh and the check shows no growth:
    neither the interval rule (for a positive threshold) nor the cumulative
    change can see it.
   */
  lemma RefreshMasksGrowth(st: State, volumes: seq<string>, fetch: Fetch, measure: string -> real,
                           volume: string, th: Thresholds)
    requires volume in volumes
    requires UseSnapshot(st.snapshot, fetch).servers.Some?
    requires LastMatch(UseSnapshot(st.snapshot, fetch).servers.value, volume) >= 0
    requires th.interval > 0.0
    ensures var refreshed := CacheInternalIds(st, volumes, fetch, measure).state;
      var rec := Lookup(refreshed.records, volume);
      && !SuddenGrowth(measure(volume), rec, th)
      && AccumulateDrift(measure(volume), rec.size, GetOr(refreshed.drift, volume, 0.0)) == GetOr(st.drift, volume, 0.0)
  {
  }
}
